=== FILE: README.md ===
# Course portfolio services, modelled in Dafny

The course portfolio site reads its content from Notion databases. This
project models how its two service modules and its configuration turn Notion
data into what the pages show.

- **Course service** (`services/courseService.ts`). It reads a typed Notion
  property four ways: as text, as file URLs, as links and as hex colours. It
  also finds a row's title and lists a database's schema as detected
  properties. Its row normaliser visits a row's properties in order and builds
  an `Item`:
  - `text`: the first four non-title texts, joined by `" | "`;
  - `images`, `links` and `colors`: the concatenated readings, capped at 6, 4
    and 8;
  - `fields`: one canonical reading per property name.
- **Data service** (`services/dataService.ts`). It serves the two legacy theme
  galleries. It reads a property as text or as file URLs, parses the
  `";;"`-separated student ids and names, parses tags, collects the
  `datacard*` columns, and projects a record into a theme-1 or a theme-2
  project.
- **Tag colour picker** (`config.ts`, `getTagStyle`). An empty tag gets the
  first palette entry. A tag naming the first or the second theme gets a fixed
  style, and the first theme is checked first. Any other tag gets one of eight
  palette entries, chosen by a string hash computed in a loop.

The files:

- `js_string.dfy` (module `JsString`) gives the JavaScript string operations
  the services rely on:
  - `||` on strings, where `""` and `undefined` are falsy;
  - `split` on a literal and on a character class, `trim`, `join`, `slice` and
    `filter(Boolean)`;
  - `String(n)` for integers;
  - UTF-16 code units and `ToInt32`;
  - `includes`, and the code-unit order of the default `sort`.
- `json.dfy` is the parsed JSON value that `ensureArray` receives.
- `notion.dfy` holds the typed Notion properties. A row's properties are a
  sequence of (name, value) pairs in object enumeration order, and a null value
  is `None`.

Methods model the code that builds its result step by step:
- `CourseService.NormalizeRow` is the `forEach` that pushes into arrays and
  fills the `fields` dictionary.
- `DataService.PairStudents` is the `for` loop of `parseStudents`.
  `ParseStudents` parses the two lists and calls it, so the loop's proof
  does not carry the parsing.
- `Config.GetTagStyle` is the hash loop.

Each method is proved equal to a specification function (`NormalizedItem`,
`StudentsOf`, `TagStyleFor`), and lemmas state the properties of those
functions.

Two details of the row normaliser that the model follows:
- A row's title is the text of its first `title`-typed property, or
  `"Untitled"` when that text is empty or there is no such property
  (services/courseService.ts:63-66, 99).
- An item keeps at most 6 images, 4 links and 8 colours
  (services/courseService.ts:127-129).

`key.toLowerCase().startsWith("datacard")` is modelled by lower-casing ASCII
letters only. No other character lower-cases to one of the letters of
`"datacard"`, so the test gives the same answer.

## Model

| member | source | states |
|---|---|---|
| JsString.Take | services/courseService.ts:126-129 | `slice(0, n)` is a prefix of its input of length `min(n, length)` |
| JsString.Join | services/courseService.ts:126 | `join(sep)` of no parts is `""`; otherwise it starts with the first part and its length is the parts' total length plus one separator between each two |
| JsString.Split | services/dataService.ts:40 | `split(sep)` gives at least one piece, and joining the pieces with `sep` gives the input back |
| JsString.SplitJoin | services/dataService.ts:40-41 | splitting parts joined by `sep` returns the parts when `sep`'s first character occurs in none of them |
| JsString.SplitAny | services/dataService.ts:63 | `split(/[,;]/)` yields at least one piece and no piece contains a separator |
| JsString.SplitAnyNoSeparator | services/dataService.ts:63 | text without a separator splits into itself alone |
| JsString.SplitAnyJoin | services/dataService.ts:63 | parts free of separator characters, joined by one of them, split back into those parts |
| JsString.Trim | services/courseService.ts:57 | `trim` gives a contiguous part of the input with no white space at either end and only white space around it |
| JsString.TrimPadded | services/dataService.ts:41 | trimming white space padding, on either side, off a trimmed text gives that text |
| JsString.TrimKeepsNoneIn | services/dataService.ts:63 | trimming adds no separator character |
| JsString.TrimTrimmed | services/dataService.ts:40 | trimming text without surrounding white space changes nothing |
| JsString.TrimAll | services/dataService.ts:90 | `map(s => s.trim())` trims each element and keeps the length |
| JsString.NonEmpty | services/dataService.ts:40 | `filter(Boolean)` keeps exactly the non-empty strings, in order, and no more elements than it received |
| JsString.NonEmptySingle | services/dataService.ts:40 | `filter(Boolean)` of one string keeps it exactly when it is non-empty |
| JsString.NonEmptyAppend | services/dataService.ts:40 | `filter(Boolean)` of two runs is the filtered first run followed by the filtered second, so it keeps order and repetitions |
| JsString.TrimAllTrimmed | services/dataService.ts:40 | trimming every string of a list whose strings have no surrounding white space changes nothing |
| JsString.NonEmptyUnchanged | services/courseService.ts:126 | filtering strings that are all non-empty changes nothing |
| JsString.Decimal | services/courseService.ts:29 | `String(n)` of an integer starts with `-` exactly when `n` is negative, followed by digits with no leading zero, `"0"` for zero |
| JsString.DecimalRoundTrip | services/courseService.ts:29 | `String(n)` of an integer is a non-empty decimal numeral whose value is `n` |
| JsString.NatDigitsValue | services/courseService.ts:29 | the digits written for a natural number read back as that number |
| JsString.Utf16 | config.ts:51-52 | a string has between one and two code units per character, each in `[0, 65536)` |
| JsString.Utf16Bmp | config.ts:51-52 | text of the Basic Multilingual Plane is one code unit per character, equal to the character's value |
| JsString.ToInt32 | config.ts:52 | `ToInt32` lies in the signed 32-bit range and agrees with its input modulo 2^32 |
| JsString.IncludesOccurrence | config.ts:47-48 | `includes(t)` holds exactly when `t` occurs at some index |
| JsString.IncludesMiddle | config.ts:47-48 | a text that has `t` between two other texts includes `t` |
| JsString.IncludesAt | config.ts:47-48 | an occurrence at some index makes `includes` true |
| JsString.NotIncludes | config.ts:47-48 | a needle whose first character is absent is not included |
| JsString.NotIncludesLonger | config.ts:47-48 | a needle at least as long as the text is included only if it equals it |
| JsString.UnitsLeTotal | services/dataService.ts:87 | the code-unit order of `sort` is total |
| JsString.SortStrings | services/dataService.ts:87 | `sort()` gives a permutation of its input ordered by UTF-16 code units |
| Notion.LookupFirst | services/dataService.ts:96 | `props[key]` is the value of the first property with that name, and `None` when no property has that name |
| Notion.PlainTextEmpty | services/courseService.ts:8-9 | the text of rich-text runs is empty exactly when every run's `plain_text` is missing or empty |
| Notion.FileUrls | services/courseService.ts:39-44 | the URLs of a `files` list are non-empty and no more than the files |
| Notion.FileUrlsAppend | services/courseService.ts:41-43 | map-then-filter over files distributes over concatenation |
| Notion.FileUrlsSingle | services/courseService.ts:42 | a file gives its hosted URL, else its external URL, else nothing |
| CourseService.EnsureArray | services/courseService.ts:3-6 | an array is kept as it is; any other value gives `[]` |
| CourseService.ReadPropText | services/courseService.ts:11-37 | a title or rich-text property reads as the concatenated `plain_text` of its runs; select, status, url, email, phone and date read as their name, URL, address, number or start date (`""` when missing); missing, `files` and unlisted types read as `""`; a number reads as the canonical decimal numeral of its value (`Decimal`: a sign only for negatives, no leading zero) and is `""` only when absent; a multi-select joins its names with `", "` |
| CourseService.ReadPropFiles | services/courseService.ts:39-44 | only a `files` property has URLs; they are its file URLs, all non-empty |
| CourseService.ReadPropUrl | services/courseService.ts:46-53 | at most one link; there is one exactly when the text is non-empty and the property is a `url` or its text starts with `http://` or `https://`, and the link is that text |
| CourseService.ReadPropColor | services/courseService.ts:55-61 | at most one colour; there is one exactly when the trimmed text is a 3- or 6-digit hex colour, and the colour is that trimmed text |
| CourseService.TitleIndex | services/courseService.ts:64 | the index of the first `title` property, with none before it, or the length when there is none |
| CourseService.PickTitle | services/courseService.ts:63-66 | the text of the first `title` property, `""` when there is none |
| CourseService.ItemTitleUntitled | services/courseService.ts:99 | a row without a `title` property gets `"Untitled"`; with one, the picked title is empty exactly when every run of it has an empty `plain_text`; any other item title is the picked, non-empty title |
| CourseService.TextFields | services/courseService.ts:107-111 | the pushed texts are non-empty and at most one per property |
| CourseService.GatherKeeps | services/courseService.ts:112-114 | a property every reading has holds for every element of the concatenated readings |
| CourseService.FieldsKeys | services/courseService.ts:115-120 | `fields` has an entry under every property name and under no other key |
| CourseService.FieldsExact | services/courseService.ts:115-120 | with distinct names, `fields[name]` is the reading of the property of that name |
| CourseService.VisitOne | services/courseService.ts:106-121 | visiting one more property appends its text (if it counts), files, link and colour and records its reading under its name |
| CourseService.NormalizedItem | services/courseService.ts:97-131 | the id is the row's id when non-empty, else the fallback id; the title is never empty: the picked title when that is non-empty, else `"Untitled"`; `text` is the first four counted texts joined by the bar separator; images, links and colours are prefixes of the concatenated readings of length `min(cap, total)`, with non-empty URLs and valid hex colours; `fields` is the per-name reading |
| CourseService.NormalizedFields | services/courseService.ts:104-121 | with distinct names, the item's `fields` holds exactly each property's text, images, links and colours and nothing else |
| CourseService.NormalizeRow | services/courseService.ts:97-132 | the property loop and the slices build exactly `NormalizedItem` |
| CourseService.NormalizeRows | services/courseService.ts:96-132 | one item per row, item `k` being row `k` normalised with the fallback id `databaseId-draw`; each has a non-empty title and keeps the row's id when it has one |
| CourseService.DetectProperties | services/courseService.ts:89-94 | one entry per schema property in order, named after it; the id falls back to the name; the type is the schema's type when that is non-empty and `"unknown"` otherwise, so it is never empty |
| CourseService.DatabaseTitle | services/courseService.ts:135 | the shown title is never falsy: the database title when truthy, else `"Source Database"` |
| CourseService.ReadSourceDatabase | services/courseService.ts:89-138 | the title is the database title when truthy, else `"Source Database"`; the properties are the detected property list of the schema; one normalised item per row |
| DataService.GetPropValue | services/dataService.ts:8-29 | title and rich text read as the concatenated `plain_text` of their runs; select and url as their name or URL; a multi-select as its names joined with `,`; files as their URLs joined with `,`; a missing property and the unlisted types read as `""`; a number reads as the canonical decimal numeral of its value (`Decimal`: a sign only for negatives, no leading zero) and is `""` only when absent |
| DataService.GetFileUrls | services/dataService.ts:34-37 | only a `files` property has URLs, and every URL is non-empty |
| DataService.GetPropValueAgainstCourseService | services/dataService.ts:8-37 | agrees with the course service's text for titles, rich text, selects, URLs and numbers; joins multi-select names with `","` where the course service uses `", "`; gives a `files` property's URLs joined by `","` where the course service gives `""`; `getFileUrls` is the course service's `readPropFiles` |
| DataService.FileUrlsFromText | services/dataService.ts:25 | the text of a `files` property splits back on `","` into its URLs when there is one and none holds a comma |
| DataService.EnsureArray | services/dataService.ts:66-72 | an array is kept; an object whose `results` is an array gives that array; anything else gives `[]` |
| DataService.EnsureArrayExtends | services/dataService.ts:66-72 | an array is kept, as the course service keeps it; an object is read as the course service reads its `results`; anything else gives `[]`; applying it to its own result changes nothing |
| DataService.CleanList | services/dataService.ts:40-41 | every parsed item is non-empty and trimmed, and there are no more items than pieces |
| DataService.CleanListPadded | services/dataService.ts:40-41 | pieces without `;` joined by `";;"`, padded or blank, parse to the trimmed pieces with the blank ones dropped |
| DataService.CleanListJoin | services/dataService.ts:40-41 | non-empty, trimmed items without `';'` joined by `";;"` parse back to themselves |
| DataService.StudentsOf | services/dataService.ts:43-52 | one student per position of the longer list; the id is the listed one when non-empty, else `ID-MISSING-i`; the name is the listed one when non-empty, else the listed id, else `"Unknown Student"`; no id or name is empty |
| DataService.Students | services/dataService.ts:39-55 | one student per position of the longer parsed list, none with an empty id or name |
| DataService.StudentsFallbacks | services/dataService.ts:43-52 | one student per position of the longer list; ids and names come from their lists where present; a missing id is `ID-MISSING-i`; a missing name is the id at that position; no id or name is empty |
| DataService.PairStudents | services/dataService.ts:44-52 | the loop pushes exactly the students of `StudentsOf` |
| DataService.ParseStudents | services/dataService.ts:39-55 | the result is `Students(ids, names)` |
| DataService.StudentsPaired | services/dataService.ts:39-55 | equally many ids and names written with `";;"` are paired up in order |
| DataService.ParseTags | services/dataService.ts:57-64 | a missing property gives `[]`; a multi-select gives its names; any other gives tags that are non-empty, trimmed and free of `,` and `;` |
| DataService.ParseTagsJoin | services/dataService.ts:62-63 | non-empty, trimmed tags free of `,` and `;`, written as a property's text with `,` or `;` between them, parse back to those tags |
| DataService.ParseTagsPadded | services/dataService.ts:62-63 | pieces free of `,` and `;`, padded or blank, written with `,` or `;` between them, give the trimmed pieces with the blank ones dropped |
| DataService.ParseTagsSingle | services/dataService.ts:62-63 | a trimmed text without a separator is exactly one tag |
| DataService.DataCardNames | services/dataService.ts:86 | the kept keys are exactly the keys whose lower-case form starts with `"datacard"` |
| DataService.DataCardNamesCount | services/dataService.ts:86 | each data-card key is kept as often as it occurs, and no other key is kept |
| DataService.DataCardNamesSingle | services/dataService.ts:86 | one key is kept exactly when it is a data-card key |
| DataService.DataCardNamesAppend | services/dataService.ts:86 | the filter distributes over concatenation, so kept keys stay in their order |
| DataService.DataCardKeys | services/dataService.ts:85-87 | the data-card keys are sorted and a permutation of the filtered property names, so exactly the record's keys that pass the test |
| DataService.DataCardKeysCount | services/dataService.ts:85-87 | each data-card key occurs as often as among the property names; with distinct names each occurs at most once |
| DataService.Card | services/dataService.ts:90 | a card has at least one item and every item is trimmed |
| DataService.CardPadded | services/dataService.ts:90 | pieces without `;` joined by `";;"`, padded or blank, give the trimmed pieces as the card items, blank ones included |
| DataService.DataCards | services/dataService.ts:85-90 | no more cards than data-card keys; every card has at least one item and every item is trimmed |
| DataService.DataCardsComplete | services/dataService.ts:85-90 | every data-card key with a non-empty value gives its card |
| DataService.DataCardsSound | services/dataService.ts:85-90 | every card is the split and trimmed non-empty value of some data-card key |
| DataService.DataCardsAllFilled | services/dataService.ts:85-90 | when every data-card value is non-empty, card `k` comes from the `k`-th key in sorted order |
| DataService.CardJoin | services/dataService.ts:90 | a card whose items had no surrounding white space joins back with `";;"` into its value |
| DataService.RecordId | services/dataService.ts:95 | the record's id when non-empty, else the random id |
| DataService.ProjectName | services/dataService.ts:96 | the name is the `Name` text when that is non-empty, else `"Untitled Project"`, so never empty |
| DataService.MainImage | services/dataService.ts:92-102 | never empty: the first `mainImage` URL, else the placeholder |
| DataService.Gallery | services/dataService.ts:123-134 | never empty, with non-empty URLs: the `Gallery` URLs, else the placeholder alone |
| DataService.ToTheme1Project | services/dataService.ts:82-106 | a theme-1 project has the record's id or the random id; a non-empty name, `"Untitled Project"` when `Name` is empty; a non-empty main image, the first `mainImage` URL or the placeholder; the students parsed from `StudentID` and `StudentName`: as many as the longer list, the listed ids and names in order, `ID-MISSING-i` for a missing id, the id for a missing name, none empty; the tags `ParseTags` reads from `Tags` (a multi-select's names, else non-empty trimmed tags free of `,` and `;`); the data cards `DataCards` builds from the row, at most one per data-card key and each with an item; `year`, `ProjectIntro`, `Group` and `Answer` read as text |
| DataService.ToTheme2Project | services/dataService.ts:121-138 | a theme-2 project has the record's id or the random id; a non-empty name, `"Untitled Project"` when `Name` is empty; a non-empty gallery of non-empty URLs, the `Gallery` URLs or the placeholder alone; the captions are the `Caption` text split on `";;"` and trimmed, at least one; students as for theme 1; the tags `ParseTags` reads from `Tag` when present, else from `Tags`; the year read from `Year` when present, else from `year`; `ProjectIntro`, `Group` and `VideoURL` read as text |
| DataService.Theme1Projects | services/dataService.ts:82-106 | one project per record, project `k` being record `k` converted with its random id; each named and with a main image, keeping the record's id when it has one |
| DataService.Theme2Projects | services/dataService.ts:121-138 | one project per record, project `k` being record `k` converted with its random id; each named and with a non-empty gallery, keeping the record's id when it has one |
| Config.HashStep | config.ts:50-53 | one step of the loop lies within 2^31 of `code - hash` and equals `31 * hash + code` modulo 2^32 |
| Config.HashPolynomial | config.ts:50-53 | the loop's hash equals the base-31 polynomial hash of the code units modulo 2^32 |
| Config.PaletteIndex | config.ts:54 | `Math.abs(hash) % 8` is a valid index of the palette |
| Config.TagStyleFor | config.ts:44-56 | an empty tag gets the first palette entry; a tag naming the first theme gets the zinc style even if it also names the second; a tag naming only the second theme gets the blue style; any other tag gets the palette entry at its hash index; the result is a palette entry exactly when no theme is named or the tag is empty |
| Config.GetTagStyle | config.ts:44-56 | the guards and the hash loop return exactly `TagStyleFor(tag)` |
| Config.HashBound | config.ts:50-53 | after `n` code units the hash lies within `n * (2^31 + 65535)` of zero |
| Config.HashExact | config.ts:50-53 | for tags of at most 2^21 code units every intermediate hash is below 2^53 in magnitude, so exact integer arithmetic is what the loop computes |
| Config.ThemeOneNameStyle | config.ts:47 | example: the tag "Seeing Like a Thing" gets the zinc style |
| Config.TrackingStyleOf | config.ts:48 | example: the tag "Tracking" gets the blue style |
| Config.TrackingAnywhere | config.ts:47-48 | any tag with "Tracking" in it, such as "Everyday Data Tracking", gets the blue style unless it names the first theme |
| Config.SeeingAnywhere | config.ts:47-48 | any tag with "Seeing" in it gets the zinc style, and so does any tag with "Tracking" and "Seeing" in either order |
| Config.ThemeTwoStyleOf | config.ts:48 | example: the tag "主題二" gets the blue style |
| Config.BothThemesStyle | config.ts:47-48 | every tag naming both themes gets the zinc style |

## Left out

- Network work is not modelled: `fetch`, status checks and `res.json()` in `fetchCourses`, `fetchProjects` and `fetchSourceDatabase` (services/courseService.ts:68-87), and the fetch wrappers, `try`/`catch` and `console.error` of services/dataService.ts:74-80, 107-111, 113-119 and 139-142. They are I/O.
- `fetchCourses` and `fetchProjects` only apply `ensureArray` to `data.results`. That is covered by `DataService.EnsureArrayExtends`. The `Course` and `Project` records they return are not decoded.
- The decoding of parsed JSON into typed Notion rows, properties and schema entries is not modelled. The row normaliser, the detected property list and the record projections receive typed values. `ensureArray` works on the JSON value itself.
- `Math.random()` and `Date.now()` are not modelled. The random id of a row or record without one is a parameter: `fallbackId`, `randomId` or `draws[k]`. `Date.now()` only appears in the cache-busting URL, which is left out with the network.
- CourseService.ReadPropText: a `number` property holds an integer. Fractions, `NaN`, infinities and the exponent form `String` uses from 1e21 upward are not modelled.
- DataService.GetPropValue: numbers are integers, for the same reason as `ReadPropText`.
- Arrays in the Notion payload (`title`, `rich_text`, `multi_select`, `files`) are never `null`. The code would throw on some of those `null`s (`readRichText(null)`, `tagsRaw.multi_select.map` on `null`), and that error path is not modelled.
- DataService.ParseTags: a multi-select option always has a string name. An option without a name would put `undefined` into the tags.
- Payloads of an unexpected JavaScript type (a number where a string is expected, say) are not modelled. Each payload has the type the Notion API documents.
- Config.GetTagStyle: the hash is computed on unbounded integers. `Config.HashExact` shows this equals the double arithmetic of the loop for tags of up to 2^21 UTF-16 code units. Longer tags are not covered.
- CourseService.FieldsExact: requires distinct property names. The keys of a JavaScript object are distinct, and a repeated name in the sequence model would keep the later reading.
- Row properties arrive in JavaScript's object enumeration order (integer-like keys first, then insertion order). The model takes that order as given and does not compute it.
- The React components, pages and the Express proxy in `server.js` are not modelled, because they are UI and server plumbing. Neither are `card-style-registry.ts` and `types.ts`, apart from the record shapes mirrored as datatypes.
- The `CONFIG` strings other than `TAG_COLORS` are not modelled. They are display data.
- The mapping-override parser and the pattern resolver are not part of this model. The service files hold no implementation of them.

=== FILE: config.dfy ===
/**
 * The site configuration's tag colour picker: an empty tag takes the first
 * palette entry, the two theme keywords take fixed styles, and any other tag a
 * palette entry chosen by a string hash.
 */
module Config {
  import opened JsString

  datatype TagStyle = TagStyle(bg: string, text: string, border: string)

  /** `CONFIG.TAG_COLORS`. */
  const TagColors: seq<TagStyle> := [
    TagStyle("bg-blue-50", "text-blue-600", "border-blue-100"),
    TagStyle("bg-emerald-50", "text-emerald-600", "border-emerald-100"),
    TagStyle("bg-purple-50", "text-purple-600", "border-purple-100"),
    TagStyle("bg-orange-50", "text-orange-600", "border-orange-100"),
    TagStyle("bg-rose-50", "text-rose-600", "border-rose-100"),
    TagStyle("bg-cyan-50", "text-cyan-600", "border-cyan-100"),
    TagStyle("bg-amber-50", "text-amber-600", "border-amber-100"),
    TagStyle("bg-indigo-50", "text-indigo-600", "border-indigo-100")
  ]

  /** The style of a tag naming the first theme, "Seeing Like a Thing". */
  const SeeingStyle := TagStyle("bg-zinc-900", "text-white", "border-zinc-900")
  /** The style of a tag naming the second theme, "Everyday Data Tracking". */
  const TrackingStyle := TagStyle("bg-blue-600", "text-white", "border-blue-600")

  /** "主題一" and "主題二", "theme one" and "theme two". */
  const ThemeOne := "\U{4E3B}\U{984C}\U{4E00}"
  const ThemeTwo := "\U{4E3B}\U{984C}\U{4E8C}"

  predicate NamesThemeOne(tag: string) {
    Includes(tag, "Seeing") || Includes(tag, ThemeOne)
  }

  predicate NamesThemeTwo(tag: string) {
    Includes(tag, "Tracking") || Includes(tag, ThemeTwo)
  }

  /**
   * `hash = code + ((hash << 5) - hash)`. `hash` is a JavaScript number; `<<`
   * converts it to a 32-bit integer and wraps the shifted result to 32 bits,
   * while the subtraction and the addition are exact (see `HashExact`). Modulo
   * 2^32 the step multiplies the hash by 31 and adds the code unit.
   */
  function HashStep(hash: int, code: int): (next: int)
    ensures (next - (31 * hash + code)) % 0x1_0000_0000 == 0
    ensures code - hash - 0x8000_0000 <= next < code - hash + 0x8000_0000
  {
    var shifted := ToInt32(ToInt32(hash) * 32);
    ShiftCongruent(hash, ToInt32(hash), shifted);
    code + (shifted - hash)
  }

  /** Wrapping to 32 bits before and after a shift by 5 leaves `32 * hash` modulo 2^32. */
  lemma ShiftCongruent(hash: int, wrapped: int, shifted: int)
    requires (hash - wrapped) % 0x1_0000_0000 == 0
    requires (wrapped * 32 - shifted) % 0x1_0000_0000 == 0
    ensures (shifted - 32 * hash) % 0x1_0000_0000 == 0
  {
    var q1 := (hash - wrapped) / 0x1_0000_0000;
    var q2 := (wrapped * 32 - shifted) / 0x1_0000_0000;
    assert shifted - 32 * hash == -(32 * q1 + q2) * 0x1_0000_0000;
  }

  /** The hash after the loop has visited the code units `units`, starting from 0. */
  function Hash(units: seq<int>): int {
    if |units| == 0 then 0 else HashStep(Hash(units[..|units| - 1]), units[|units| - 1])
  }

  function Abs(x: int): (a: nat)
    ensures a == x || a == -x
  {
    if x < 0 then -x else x
  }

  /** `Math.abs(hash) % TAG_COLORS.length` for the hash of the tag's UTF-16 code units. */
  function PaletteIndex(tag: string): (index: nat)
    ensures index < |TagColors|
  {
    Abs(Hash(Utf16(tag))) % |TagColors|
  }

  /**
   * The style `getTagStyle` returns: the theme-one check runs before the
   * theme-two check, and the hash decides only for tags that name neither theme.
   */
  function TagStyleFor(tag: string): (style: TagStyle)
    ensures tag == "" ==> style == TagColors[0]
    ensures tag != "" && NamesThemeOne(tag) ==> style == SeeingStyle
    ensures tag != "" && !NamesThemeOne(tag) && NamesThemeTwo(tag) ==> style == TrackingStyle
    ensures tag != "" && !NamesThemeOne(tag) && !NamesThemeTwo(tag) ==> style == TagColors[PaletteIndex(tag)]
    ensures style in TagColors || style == SeeingStyle || style == TrackingStyle
    ensures style in TagColors <==> tag == "" || !(NamesThemeOne(tag) || NamesThemeTwo(tag))
  {
    if tag == "" then TagColors[0]
    else if NamesThemeOne(tag) then SeeingStyle
    else if NamesThemeTwo(tag) then TrackingStyle
    else TagColors[PaletteIndex(tag)]
  }

  /** Example: the first theme's name itself gets the first theme's style. */
  lemma ThemeOneNameStyle()
    ensures TagStyleFor("Seeing Like a Thing") == SeeingStyle
  {
    IncludesAt("Seeing Like a Thing", "Seeing", 0);
  }

  /**
   * Example: the second theme's English keyword alone gets the second theme's
   * style; it names neither theme-one keyword, as `TrackingAnywhere` requires.
   */
  lemma TrackingStyleOf()
    ensures TagStyleFor("Tracking") == TrackingStyle
  {
    IncludesAt("Tracking", "Tracking", 0);
    NotIncludes("Tracking", "Seeing");
    NotIncludes("Tracking", ThemeOne);
  }

  /**
   * Any tag with "Tracking" somewhere in it, such as "Everyday Data Tracking",
   * gets the second theme's style unless it also names the first theme.
   */
  lemma TrackingAnywhere(before: string, after: string)
    requires !NamesThemeOne(before + "Tracking" + after)
    ensures TagStyleFor(before + "Tracking" + after) == TrackingStyle
  {
    IncludesMiddle(before, "Tracking", after);
  }

  /** Example: the second theme's Chinese keyword alone gets the second theme's style. */
  lemma ThemeTwoStyleOf()
    ensures TagStyleFor(ThemeTwo) == TrackingStyle
  {
    IncludesAt(ThemeTwo, ThemeTwo, 0);
    NotIncludes(ThemeTwo, "Seeing");
    NotIncludesLonger(ThemeTwo, ThemeOne);
  }

  /** A tag naming both themes gets the first theme's style: the first theme is checked first. */
  lemma BothThemesStyle(tag: string)
    requires NamesThemeOne(tag) && NamesThemeTwo(tag)
    ensures TagStyleFor(tag) == SeeingStyle
  {
  }

  /**
   * Any tag with "Seeing" somewhere in it gets the first theme's style, whatever
   * stands around it, and so does any tag naming the two themes in either order.
   */
  lemma SeeingAnywhere(before: string, between: string, after: string)
    ensures TagStyleFor(before + "Seeing" + after) == SeeingStyle
    ensures TagStyleFor(before + "Tracking" + between + "Seeing" + after) == SeeingStyle
    ensures TagStyleFor(before + "Seeing" + between + "Tracking" + after) == SeeingStyle
  {
    IncludesMiddle(before, "Seeing", after);
    IncludesMiddle(before + "Tracking" + between, "Seeing", after);
    IncludesMiddle(before, "Seeing", between + "Tracking" + after);
    assert before + "Seeing" + (between + "Tracking" + after) == before + "Seeing" + between + "Tracking" + after;
  }

  /** `getTagStyle`: the keyword guards, then the hash loop over the tag's code units. */
  method GetTagStyle(tag: string) returns (style: TagStyle)
    ensures style == TagStyleFor(tag)
  {
    if tag == "" {
      return TagColors[0];
    }
    if Includes(tag, "Seeing") || Includes(tag, ThemeOne) {
      return SeeingStyle;
    }
    if Includes(tag, "Tracking") || Includes(tag, ThemeTwo) {
      return TrackingStyle;
    }
    var units := Utf16(tag);
    var hash := 0;
    for i := 0 to |units|
      invariant hash == Hash(units[..i])
    {
      assert units[..i + 1][..i] == units[..i];
      hash := units[i] + (ToInt32(ToInt32(hash) * 32) - hash);
    }
    assert units[..|units|] == units;
    var index := Abs(hash) % |TagColors|;
    style := TagColors[index];
  }

  /** The polynomial string hash: the code units as the digits of a base-31 number. */
  function Polynomial(units: seq<int>): int {
    if |units| == 0 then 0 else 31 * Polynomial(units[..|units| - 1]) + units[|units| - 1]
  }

  /** Congruence modulo 2^32 survives multiplying by 31 and adding the same code unit. */
  lemma StepCongruent(hash: int, poly: int, next: int, code: int)
    requires (hash - poly) % 0x1_0000_0000 == 0
    requires (next - (31 * hash + code)) % 0x1_0000_0000 == 0
    ensures (next - (31 * poly + code)) % 0x1_0000_0000 == 0
  {
    var q := (hash - poly) / 0x1_0000_0000;
    var r := (next - (31 * hash + code)) / 0x1_0000_0000;
    assert next - (31 * poly + code) == (31 * q + r) * 0x1_0000_0000;
  }

  /** The loop's hash agrees with the base-31 polynomial hash modulo 2^32. */
  lemma {:induction false} HashPolynomial(units: seq<int>)
    ensures (Hash(units) - Polynomial(units)) % 0x1_0000_0000 == 0
  {
    if |units| > 0 {
      var init, last := units[..|units| - 1], units[|units| - 1];
      HashPolynomial(init);
      StepCongruent(Hash(init), Polynomial(init), HashStep(Hash(init), last), last);
    }
  }

  /** Each step adds at most a code unit and a 32-bit value to the magnitude of the hash. */
  lemma {:induction false} HashBound(units: seq<int>)
    requires forall k :: 0 <= k < |units| ==> 0 <= units[k] < 0x1_0000
    ensures -|units| * 0x8000_FFFF <= Hash(units) <= |units| * 0x8000_FFFF
  {
    if |units| > 0 {
      var init := units[..|units| - 1];
      assert forall k :: 0 <= k < |init| ==> init[k] == units[k];
      HashBound(init);
      assert |units| * 0x8000_FFFF == |init| * 0x8000_FFFF + 0x8000_FFFF;
    }
  }

  /**
   * For a tag of at most 2^21 code units the hash stays below 2^53 in magnitude,
   * so every intermediate value is an exactly represented JavaScript number and
   * the exact arithmetic of `HashStep` is the arithmetic the loop performs.
   */
  lemma HashExact(tag: string)
    requires |Utf16(tag)| <= 0x20_0000
    ensures forall i :: 0 <= i <= |Utf16(tag)| ==> Abs(Hash(Utf16(tag)[..i])) < 0x20_0000_0000_0000
  {
    var units := Utf16(tag);
    forall i | 0 <= i <= |units| ensures Abs(Hash(units[..i])) < 0x20_0000_0000_0000 {
      var prefix := units[..i];
      assert forall k :: 0 <= k < |prefix| ==> prefix[k] == units[k];
      HashBound(prefix);
    }
  }
}

=== FILE: course_service.dfy ===
/**
 * The course service's reading of a source database: one typed Notion property
 * read as text, file URLs, links and colours, the detected property list, and
 * the normalisation of every row into an `Item`.
 */
module CourseService {
  import opened JsString
  import opened Notion
  import Json

  /** The canonical reading of one property, as kept in `Item.fields`. */
  datatype CanonicalField = CanonicalField(text: string, images: seq<string>, links: seq<string>, colors: seq<string>)

  /** A normalised source row. */
  datatype Item = Item(
    id: string,
    title: string,
    text: string,
    images: seq<string>,
    links: seq<string>,
    colors: seq<string>,
    fields: map<string, CanonicalField>)

  /** One property of the database schema: its `id` and `type`, either possibly missing. */
  datatype SchemaEntry = SchemaEntry(id: Option<string>, typeName: Option<string>)

  /** One entry of the detected property list. */
  datatype DetectedProperty = DetectedProperty(id: string, name: string, typeName: string)

  const MaxTexts: nat := 4
  const MaxImages: nat := 6
  const MaxLinks: nat := 4
  const MaxColors: nat := 8
  const UntitledTitle := "Untitled"
  const TextSeparator := " | "

  /** `ensureArray`: an array as it is, anything else as `[]`. */
  function EnsureArray(value: Json.Json): (items: seq<Json.Json>)
    ensures value.JArray? ==> items == value.items
    ensures !value.JArray? ==> items == []
  {
    if value.JArray? then value.items else []
  }

  // ---------------------------------------------------------------------------
  // the property reader

  /** `readPropText`: the text of a property; every type it does not list reads as `""`. */
  function ReadPropText(prop: Option<Property>): (text: string)
    ensures prop.None? || prop.value.Files? || prop.value.Unknown? ==> text == ""
    ensures prop.Some? && prop.value.Title? ==> text == PlainText(prop.value.titleRuns)
    ensures prop.Some? && prop.value.RichText? ==> text == PlainText(prop.value.textRuns)
    ensures prop.Some? && prop.value.Select? ==> text == Str(prop.value.selectName)
    ensures prop.Some? && prop.value.Status? ==> text == Str(prop.value.statusName)
    ensures prop.Some? && prop.value.Url? ==> text == Str(prop.value.url)
    ensures prop.Some? && prop.value.Email? ==> text == Str(prop.value.email)
    ensures prop.Some? && prop.value.Phone? ==> text == Str(prop.value.phone)
    ensures prop.Some? && prop.value.Date? ==> text == Str(prop.value.start)
    ensures prop.Some? && prop.value.Number? ==>
      (text != "" <==> prop.value.number.Some?)
      && (prop.value.number.Some? ==> IsDecimal(text) && DecimalValue(text) == prop.value.number.value)
      && (prop.value.number.Some? ==> text == Decimal(prop.value.number.value))
    ensures prop.Some? && prop.value.MultiSelect? ==> text == Join(prop.value.names, ", ")
  {
    match prop
    case None => ""
    case Some(p) =>
      match p
      case Title(runs) => PlainText(runs)
      case RichText(runs) => PlainText(runs)
      case Select(name) => Str(name)
      case Status(name) => Str(name)
      case Url(url) => Str(url)
      case Email(email) => Str(email)
      case Phone(phone) => Str(phone)
      case Number(n) =>
        if n.Some? then DecimalRoundTrip(n.value); Decimal(n.value) else ""
      case Date(start) => Str(start)
      case MultiSelect(names) => Join(names, ", ")
      case Files(_) => ""
      case Unknown(_) => ""
  }

  /** `readPropFiles`: the URLs of a `files` property; nothing for any other type. */
  function ReadPropFiles(prop: Option<Property>): (images: seq<string>)
    ensures !(prop.Some? && prop.value.Files?) ==> images == []
    ensures prop.Some? && prop.value.Files? ==> images == FileUrls(prop.value.files)
    ensures forall k :: 0 <= k < |images| ==> images[k] != ""
  {
    if prop.Some? && prop.value.Files? then FileUrls(prop.value.files) else []
  }

  /** The regular expression `^https?:\/\/`. */
  predicate IsHttpUrl(text: string) {
    "http://" <= text || "https://" <= text
  }

  /** `readPropUrl`: the property's text as a link, if it is a `url` property or reads as one. */
  function ReadPropUrl(prop: Option<Property>): (links: seq<string>)
    ensures |links| <= 1
    ensures links != [] <==> ReadPropText(prop) != "" && ((prop.Some? && prop.value.Url?) || IsHttpUrl(ReadPropText(prop)))
    ensures links != [] ==> links[0] == ReadPropText(prop)
  {
    if prop.None? then []
    else
      var text := ReadPropText(prop);
      if text == "" then []
      else if prop.value.Url? then [text]
      else if IsHttpUrl(text) then [text]
      else []
  }

  predicate IsHexDigit(c: char) {
    '0' <= c <= '9' || 'a' <= c <= 'f' || 'A' <= c <= 'F'
  }

  /** The regular expression `^#([0-9a-fA-F]{3}|[0-9a-fA-F]{6})$`. */
  predicate IsHexColor(text: string) {
    (|text| == 4 || |text| == 7) && text[0] == '#'
    && forall k :: 1 <= k < |text| ==> IsHexDigit(text[k])
  }

  /** `readPropColor`: the trimmed text of the property when it is a hex colour. */
  function ReadPropColor(prop: Option<Property>): (colors: seq<string>)
    ensures |colors| <= 1
    ensures colors != [] <==> IsHexColor(Trim(ReadPropText(prop)))
    ensures colors != [] ==> colors[0] == Trim(ReadPropText(prop))
    ensures forall k :: 0 <= k < |colors| ==> IsHexColor(colors[k])
  {
    if prop.None? then
      assert Trim(ReadPropText(prop)) == "";
      []
    else
      var text := Trim(ReadPropText(prop));
      if text == "" then []
      else if IsHexColor(text) then [text]
      else []
  }

  /** The position of the first `title` property, `|props|` when there is none. */
  function TitleIndex(props: Properties): (k: nat)
    ensures k <= |props|
    ensures k < |props| ==> IsTitle(props[k].1)
    ensures forall j :: 0 <= j < k ==> !IsTitle(props[j].1)
  {
    if |props| == 0 then 0
    else if IsTitle(props[0].1) then 0
    else
      var k := TitleIndex(props[1..]);
      assert forall j :: 1 <= j < k + 1 ==> props[j] == props[1..][j - 1];
      k + 1
  }

  /**
   * `pickTitle`: `Object.values(props).find(p => p?.type === 'title')` read as
   * text, `undefined` (no title property) reading as `""`.
   */
  function PickTitle(props: Properties): (title: string)
    ensures TitleIndex(props) == |props| ==> title == ""
    ensures TitleIndex(props) < |props| ==> title == ReadPropText(props[TitleIndex(props)].1)
  {
    var k := TitleIndex(props);
    ReadPropText(if k < |props| then props[k].1 else None)
  }

  // ---------------------------------------------------------------------------
  // the row normaliser

  /** `fields[name]`: what the four readers give for one property. */
  function Canonical(prop: Option<Property>): CanonicalField {
    CanonicalField(ReadPropText(prop), ReadPropFiles(prop), ReadPropUrl(prop), ReadPropColor(prop))
  }

  /** Whether a property's text goes into `textFields`: non-empty and not the title. */
  predicate CountsAsText(prop: Option<Property>) {
    ReadPropText(prop) != "" && !IsTitle(prop)
  }

  /** What `textFields` holds after the properties `props` were visited. */
  function TextFields(props: Properties): (texts: seq<string>)
    ensures |texts| <= |props|
    ensures forall k :: 0 <= k < |texts| ==> texts[k] != ""
  {
    if |props| == 0 then []
    else
      var last := props[|props| - 1].1;
      TextFields(props[..|props| - 1]) + (if CountsAsText(last) then [ReadPropText(last)] else [])
  }

  /** The concatenation, in property order, of what `read` gives for each property. */
  function Gather(props: Properties, read: Option<Property> -> seq<string>): seq<string> {
    if |props| == 0 then [] else Gather(props[..|props| - 1], read) + read(props[|props| - 1].1)
  }

  /** What `fields` holds after the properties `props` were visited, `read` giving each entry. */
  function Fields(props: Properties, read: Option<Property> -> CanonicalField): map<string, CanonicalField> {
    if |props| == 0 then map[]
    else Fields(props[..|props| - 1], read)[props[|props| - 1].0 := read(props[|props| - 1].1)]
  }

  /** Whatever every single reading satisfies, their concatenation satisfies element by element. */
  lemma {:induction false} GatherKeeps(props: Properties, read: Option<Property> -> seq<string>, ok: string -> bool)
    requires forall p: Option<Property>, k :: 0 <= k < |read(p)| ==> ok(read(p)[k])
    ensures forall k :: 0 <= k < |Gather(props, read)| ==> ok(Gather(props, read)[k])
  {
    if |props| > 0 {
      GatherKeeps(props[..|props| - 1], read, ok);
    }
  }

  /** No two properties share a name, as for the keys of a JavaScript object. */
  predicate DistinctNames(props: Properties) {
    forall i, j :: 0 <= i < j < |props| ==> props[i].0 != props[j].0
  }

  /** `fields` has a key for every property name and no other key. */
  lemma {:induction false} FieldsKeys(props: Properties, read: Option<Property> -> CanonicalField)
    ensures forall k :: 0 <= k < |props| ==> props[k].0 in Fields(props, read)
    ensures forall name :: name in Fields(props, read) ==> name in Names(props)
  {
    if |props| > 0 {
      var n := |props| - 1;
      var init := props[..n];
      FieldsKeys(init, read);
      forall k | 0 <= k < |props| ensures props[k].0 in Fields(props, read) {
        if k < n {
          assert init[k] == props[k];
        }
      }
      forall name | name in Fields(props, read) ensures name in Names(props) {
        if name != props[n].0 {
          var k :| 0 <= k < |init| && Names(init)[k] == name;
          assert Names(props)[k] == name;
        } else {
          assert Names(props)[n] == name;
        }
      }
    }
  }

  /** With distinct names, the entry under each property's name is that property's reading. */
  lemma {:induction false} FieldsExact(props: Properties, read: Option<Property> -> CanonicalField)
    requires DistinctNames(props)
    ensures forall k :: 0 <= k < |props| ==> props[k].0 in Fields(props, read) && Fields(props, read)[props[k].0] == read(props[k].1)
  {
    if |props| > 0 {
      var n := |props| - 1;
      var init := props[..n];
      FieldsKeys(props, read);
      FieldsExact(init, read);
      forall k | 0 <= k < |props| ensures Fields(props, read)[props[k].0] == read(props[k].1) {
        if k < n {
          assert init[k] == props[k];
        }
      }
    }
  }

  /** What visiting property `i` adds to each of the folds. */
  lemma VisitOne(props: Properties, i: nat)
    requires i < |props|
    ensures TextFields(props[..i + 1])
      == TextFields(props[..i]) + (if CountsAsText(props[i].1) then [ReadPropText(props[i].1)] else [])
    ensures Gather(props[..i + 1], ReadPropFiles) == Gather(props[..i], ReadPropFiles) + ReadPropFiles(props[i].1)
    ensures Gather(props[..i + 1], ReadPropUrl) == Gather(props[..i], ReadPropUrl) + ReadPropUrl(props[i].1)
    ensures Gather(props[..i + 1], ReadPropColor) == Gather(props[..i], ReadPropColor) + ReadPropColor(props[i].1)
    ensures Fields(props[..i + 1], Canonical) == Fields(props[..i], Canonical)[props[i].0 := Canonical(props[i].1)]
  {
    assert props[..i + 1][..i] == props[..i] && props[..i + 1][i] == props[i];
  }

  /** `pickTitle(props) || 'Untitled'`. */
  function ItemTitle(props: Properties): (title: string)
    ensures title != ""
    ensures PickTitle(props) != "" ==> title == PickTitle(props)
    ensures PickTitle(props) == "" ==> title == UntitledTitle
  {
    Or(PickTitle(props), UntitledTitle)
  }

  /**
   * A row's title is `"Untitled"` exactly when it has no title property or
   * every run of its first title property has an empty `plain_text`, unless
   * the title text itself is `"Untitled"`.
   */
  lemma ItemTitleUntitled(props: Properties)
    ensures TitleIndex(props) == |props| ==> ItemTitle(props) == UntitledTitle
    ensures TitleIndex(props) < |props| ==>
      ((forall k :: 0 <= k < |props[TitleIndex(props)].1.value.titleRuns|
          ==> Str(props[TitleIndex(props)].1.value.titleRuns[k]) == "")
       <==> PickTitle(props) == "")
    ensures ItemTitle(props) != UntitledTitle ==> ItemTitle(props) == PickTitle(props) && PickTitle(props) != ""
  {
    var k := TitleIndex(props);
    if k < |props| {
      var runs := props[k].1.value.titleRuns;
      assert PickTitle(props) == ReadPropText(props[k].1) == PlainText(runs);
      PlainTextEmpty(runs);
      assert (forall j :: 0 <= j < |runs| ==> Str(runs[j]) == "") <==> PickTitle(props) == "";
    }
  }

  /** The item a row normalises to (`fallbackId` stands for the random id of a row without one). */
  function NormalizedItem(row: Row, fallbackId: string): (item: Item)
    ensures item.title != ""
    ensures PickTitle(row.properties) != "" ==> item.title == PickTitle(row.properties)
    ensures PickTitle(row.properties) == "" ==> item.title == UntitledTitle
    ensures Str(row.id) != "" ==> item.id == row.id.value
    ensures Str(row.id) == "" ==> item.id == fallbackId
    ensures item.text == Join(Take(TextFields(row.properties), MaxTexts), TextSeparator)
    ensures item.images <= Gather(row.properties, ReadPropFiles)
    ensures |item.images| == if |Gather(row.properties, ReadPropFiles)| < MaxImages then |Gather(row.properties, ReadPropFiles)| else MaxImages
    ensures item.links <= Gather(row.properties, ReadPropUrl)
    ensures |item.links| == if |Gather(row.properties, ReadPropUrl)| < MaxLinks then |Gather(row.properties, ReadPropUrl)| else MaxLinks
    ensures item.colors <= Gather(row.properties, ReadPropColor)
    ensures |item.colors| == if |Gather(row.properties, ReadPropColor)| < MaxColors then |Gather(row.properties, ReadPropColor)| else MaxColors
    ensures forall k :: 0 <= k < |item.images| ==> item.images[k] != ""
    ensures forall k :: 0 <= k < |item.links| ==> item.links[k] != ""
    ensures forall k :: 0 <= k < |item.colors| ==> IsHexColor(item.colors[k])
    ensures item.fields == Fields(row.properties, Canonical)
  {
    var props := row.properties;
    NonEmptyUnchanged(TextFields(props));
    GatherKeeps(props, ReadPropFiles, s => s != "");
    GatherKeeps(props, ReadPropUrl, s => s != "");
    GatherKeeps(props, ReadPropColor, IsHexColor);
    Item(
      Or(Str(row.id), fallbackId),
      ItemTitle(props),
      Join(Take(NonEmpty(TextFields(props)), MaxTexts), TextSeparator),
      Take(Gather(props, ReadPropFiles), MaxImages),
      Take(Gather(props, ReadPropUrl), MaxLinks),
      Take(Gather(props, ReadPropColor), MaxColors),
      Fields(props, Canonical))
  }

  /**
   * `fields` of a normalised row has one entry per property, holding exactly
   * that property's text, images, links and colours, and no other entry.
   */
  lemma NormalizedFields(row: Row, fallbackId: string)
    requires DistinctNames(row.properties)
    ensures var props, fields := row.properties, NormalizedItem(row, fallbackId).fields;
      (forall k :: 0 <= k < |props| ==> props[k].0 in fields && fields[props[k].0] == Canonical(props[k].1))
      && (forall name :: name in fields ==> name in Names(props))
  {
    FieldsKeys(row.properties, Canonical);
    FieldsExact(row.properties, Canonical);
  }

  /**
   * The row loop of `fetchSourceDatabase`: visits the properties in order,
   * pushing each one's text, images, links and colours and recording its
   * reading under its name, then caps the lists.
   */
  method NormalizeRow(row: Row, fallbackId: string) returns (item: Item)
    ensures item == NormalizedItem(row, fallbackId)
  {
    var props := row.properties;
    var title := Or(PickTitle(props), UntitledTitle);
    var textFields: seq<string> := [];
    var images: seq<string> := [];
    var links: seq<string> := [];
    var colors: seq<string> := [];
    var fields: map<string, CanonicalField> := map[];
    var i := 0;
    while i < |props|
      invariant 0 <= i <= |props|
      invariant textFields == TextFields(props[..i])
      invariant images == Gather(props[..i], ReadPropFiles)
      invariant links == Gather(props[..i], ReadPropUrl)
      invariant colors == Gather(props[..i], ReadPropColor)
      invariant fields == Fields(props[..i], Canonical)
    {
      VisitOne(props, i);
      var name, prop := props[i].0, props[i].1;
      var text := ReadPropText(prop);
      var propImages := ReadPropFiles(prop);
      var propLinks := ReadPropUrl(prop);
      var propColors := ReadPropColor(prop);
      if CountsAsText(prop) {
        textFields := textFields + [text];
      }
      images := images + propImages;
      links := links + propLinks;
      colors := colors + propColors;
      fields := fields[name := CanonicalField(text, propImages, propLinks, propColors)];
      i := i + 1;
    }
    assert props[..i] == props;
    item := Item(
      Or(Str(row.id), fallbackId),
      title,
      Join(Take(NonEmpty(textFields), MaxTexts), TextSeparator),
      Take(images, MaxImages),
      Take(links, MaxLinks),
      Take(colors, MaxColors),
      fields);
  }

  /** `rows.map(...)`: `draws[k]` stands for the `Math.random()` of row `k`. */
  function NormalizeRows(rows: seq<Row>, databaseId: string, draws: seq<string>): (items: seq<Item>)
    requires |draws| == |rows|
    ensures |items| == |rows|
    ensures forall k :: 0 <= k < |rows| ==> items[k].title != ""
    ensures forall k :: 0 <= k < |rows| && Str(rows[k].id) != "" ==> items[k].id == rows[k].id.value
    ensures forall k :: 0 <= k < |rows| ==> items[k] == NormalizedItem(rows[k], databaseId + "-" + draws[k])
  {
    seq(|rows|, k requires 0 <= k < |rows| => NormalizedItem(rows[k], databaseId + "-" + draws[k]))
  }

  // ---------------------------------------------------------------------------
  // the detected property list

  /** The detected property list of `fetchSourceDatabase`: one entry per schema property, in order. */
  function DetectProperties(schema: seq<(string, Option<SchemaEntry>)>): (detected: seq<DetectedProperty>)
    ensures |detected| == |schema|
    ensures forall k :: 0 <= k < |schema| ==> detected[k].name == schema[k].0 && detected[k].typeName != ""
    ensures forall k :: (0 <= k < |schema| && schema[k].1.Some? && Str(schema[k].1.value.id) != ""
      ==> detected[k].id == schema[k].1.value.id.value)
    ensures forall k :: (0 <= k < |schema| && (schema[k].1.None? || Str(schema[k].1.value.id) == "")
      ==> detected[k].id == schema[k].0)
    ensures forall k :: (0 <= k < |schema| && (schema[k].1.None? || Str(schema[k].1.value.typeName) == "")
      ==> detected[k].typeName == "unknown")
    ensures forall k :: (0 <= k < |schema| && schema[k].1.Some? && Str(schema[k].1.value.typeName) != ""
      ==> detected[k].typeName == schema[k].1.value.typeName.value)
  {
    seq(|schema|, k requires 0 <= k < |schema| =>
      var (name, value) := schema[k];
      DetectedProperty(
        Or(if value.Some? then Str(value.value.id) else "", name),
        name,
        Or(if value.Some? then Str(value.value.typeName) else "", "unknown")))
  }

  // ---------------------------------------------------------------------------
  // the source database

  /** JavaScript's falsy values among parsed JSON: `null`, `false`, `0` and `""`. */
  predicate Falsy(value: Json.Json) {
    value.JNull? || value == Json.JBool(false) || value == Json.JNumber(0) || value == Json.JString("")
  }

  const DefaultDatabaseTitle := "Source Database"

  /** `data?.database?.title || 'Source Database'`; `None` is a missing database or title. */
  function DatabaseTitle(title: Option<Json.Json>): (shown: Json.Json)
    ensures !Falsy(shown)
    ensures title.Some? && !Falsy(title.value) ==> shown == title.value
    ensures title.None? || Falsy(title.value) ==> shown == Json.JString(DefaultDatabaseTitle)
  {
    if title.Some? && !Falsy(title.value) then title.value else Json.JString(DefaultDatabaseTitle)
  }

  /** What `fetchSourceDatabase` resolves to. */
  datatype SourceDatabase = SourceDatabase(title: Json.Json, properties: seq<DetectedProperty>, items: seq<Item>)

  /**
   * `fetchSourceDatabase` after the response is parsed: the schema and the rows
   * of the response, and `draws[k]` for the random draw of row `k`.
   */
  function ReadSourceDatabase(
    databaseId: string,
    title: Option<Json.Json>,
    schema: seq<(string, Option<SchemaEntry>)>,
    rows: seq<Row>,
    draws: seq<string>): (db: SourceDatabase)
    requires |draws| == |rows|
    ensures !Falsy(db.title) && db.title == DatabaseTitle(title)
    ensures db.properties == DetectProperties(schema)
    ensures |db.properties| == |schema| && |db.items| == |rows|
    ensures forall k :: 0 <= k < |rows| ==> db.items[k] == NormalizedItem(rows[k], databaseId + "-" + draws[k])
  {
    SourceDatabase(DatabaseTitle(title), DetectProperties(schema), NormalizeRows(rows, databaseId, draws))
  }
}

=== FILE: data_service.dfy ===
/**
 * The data service of the two legacy theme galleries: a Notion property read as
 * text or as file URLs, the student and tag parsers, and the projection of a
 * database record into a theme-1 or a theme-2 project.
 */
module DataService {
  import opened JsString
  import opened Notion
  import Json
  import CourseService

  datatype Student = Student(id: string, name: string)

  datatype Theme1Project = Theme1Project(
    id: string,
    name: string,
    year: string,
    projectIntro: string,
    tags: seq<string>,
    group: string,
    students: seq<Student>,
    mainImage: string,
    dataCards: seq<seq<string>>,
    answer: string)

  datatype Theme2Project = Theme2Project(
    id: string,
    name: string,
    year: string,
    projectIntro: string,
    tags: seq<string>,
    group: string,
    students: seq<Student>,
    gallery: seq<string>,
    captions: seq<string>,
    videoUrl: string)

  const PlaceholderImage := "https://picsum.photos/800/600"
  const UntitledProject := "Untitled Project"
  const UnknownStudent := "Unknown Student"
  const MissingIdPrefix := "ID-MISSING-"
  /** Separates the students of a record, the items of a data card and the captions. */
  const ListSeparator := ";;"
  /** Separates the URLs of a `files` property and the names of a `multi_select` in their text. */
  const ValueSeparator := ","
  /** The character class `[,;]` that separates tags written as text. */
  const TagSeparators: set<char> := {',', ';'}
  const DataCardPrefix := "datacard"

  // ---------------------------------------------------------------------------
  // reading a property

  /** `getPropValue`: the text of a property; a missing one, or a type it does not list, is `""`. */
  function GetPropValue(prop: Option<Property>): (value: string)
    ensures prop.None? ==> value == ""
    ensures prop.Some? && prop.value.Title? ==> value == PlainText(prop.value.titleRuns)
    ensures prop.Some? && prop.value.RichText? ==> value == PlainText(prop.value.textRuns)
    ensures prop.Some? && prop.value.Select? ==> value == Str(prop.value.selectName)
    ensures prop.Some? && prop.value.Url? ==> value == Str(prop.value.url)
    ensures prop.Some? && prop.value.MultiSelect? ==> value == Join(prop.value.names, ValueSeparator)
    ensures prop.Some? && prop.value.Files? ==> value == Join(FileUrls(prop.value.files), ValueSeparator)
    ensures (prop.Some? && (prop.value.Status? || prop.value.Email? || prop.value.Phone?
      || prop.value.Date? || prop.value.Unknown?)) ==> value == ""
    ensures prop.Some? && prop.value.Number? ==>
      (value != "" <==> prop.value.number.Some?)
      && (prop.value.number.Some? ==> IsDecimal(value) && DecimalValue(value) == prop.value.number.value)
      && (prop.value.number.Some? ==> value == Decimal(prop.value.number.value))
  {
    match prop
    case None => ""
    case Some(p) =>
      match p
      case Title(runs) => PlainText(runs)
      case RichText(runs) => PlainText(runs)
      case MultiSelect(names) => Join(names, ValueSeparator)
      case Select(name) => Str(name)
      case Url(url) => Str(url)
      case Number(n) =>
        if n.Some? then DecimalRoundTrip(n.value); Decimal(n.value) else ""
      case Files(files) => Join(FileUrls(files), ValueSeparator)
      case Status(_) => ""
      case Email(_) => ""
      case Phone(_) => ""
      case Date(_) => ""
      case Unknown(_) => ""
  }

  /** `getFileUrls`: the URLs of a `files` property, the hosted one preferred; `[]` for any other. */
  function GetFileUrls(prop: Option<Property>): (urls: seq<string>)
    ensures !(prop.Some? && prop.value.Files?) ==> urls == []
    ensures forall k :: 0 <= k < |urls| ==> urls[k] != ""
  {
    if prop.Some? && prop.value.Files? then FileUrls(prop.value.files) else []
  }

  /**
   * The two services read the same property the same way for titles, rich text,
   * selects, URLs and numbers; they differ on the rest.
   */
  lemma GetPropValueAgainstCourseService(prop: Option<Property>)
    ensures prop.None? || prop.value.Title? || prop.value.RichText? || prop.value.Select?
      || prop.value.Url? || prop.value.Number?
      ==> GetPropValue(prop) == CourseService.ReadPropText(prop)
    ensures prop.Some? && prop.value.MultiSelect? ==>
      GetPropValue(prop) == Join(prop.value.names, ",")
      && CourseService.ReadPropText(prop) == Join(prop.value.names, ", ")
    ensures prop.Some? && prop.value.Files? ==>
      GetPropValue(prop) == Join(CourseService.ReadPropFiles(prop), ",")
      && CourseService.ReadPropText(prop) == ""
    ensures GetFileUrls(prop) == CourseService.ReadPropFiles(prop)
  {
  }

  /**
   * The text of a `files` property splits back into its URLs on `","`, when
   * there is at least one URL and none holds a comma.
   */
  lemma FileUrlsFromText(prop: Option<Property>)
    requires prop.Some? && prop.value.Files?
    requires GetFileUrls(prop) != []
    requires forall k :: 0 <= k < |GetFileUrls(prop)| ==> ',' !in GetFileUrls(prop)[k]
    ensures Split(GetPropValue(prop), ValueSeparator) == GetFileUrls(prop)
  {
    SplitJoin(GetFileUrls(prop), ValueSeparator);
  }

  // ---------------------------------------------------------------------------
  // ensureArray

  /** `ensureArray`: an array as it is, else the `results` array of an object, else `[]`. */
  function EnsureArray(data: Json.Json): (items: seq<Json.Json>)
    ensures data.JArray? ==> items == data.items
    ensures data.JObject? && "results" in data.members && data.members["results"].JArray?
      ==> items == data.members["results"].items
    ensures !data.JArray? && !(data.JObject? && "results" in data.members && data.members["results"].JArray?)
      ==> items == []
  {
    if data.JArray? then data.items
    else if data.JObject? && "results" in data.members && data.members["results"].JArray?
    then data.members["results"].items
    else []
  }

  /**
   * This `ensureArray` extends the course service's: both keep an array; this
   * one reads an object as the course service reads that object's `results`,
   * and gives `[]` for every other value. Applying it to its own result changes nothing.
   */
  lemma EnsureArrayExtends(data: Json.Json)
    ensures data.JArray? ==> EnsureArray(data) == CourseService.EnsureArray(data) == data.items
    ensures data.JObject? && "results" in data.members
      ==> EnsureArray(data) == CourseService.EnsureArray(data.members["results"])
    ensures !data.JArray? && !(data.JObject? && "results" in data.members) ==> EnsureArray(data) == []
    ensures EnsureArray(Json.JArray(EnsureArray(data))) == EnsureArray(data)
  {
  }

  // ---------------------------------------------------------------------------
  // parseStudents

  /** `(s || "").split(";;").map(trim).filter(Boolean)`. */
  function CleanList(s: string): (items: seq<string>)
    ensures |items| <= |Split(s, ListSeparator)|
    ensures forall k :: 0 <= k < |items| ==> items[k] != "" && IsTrimmed(items[k])
  {
    var trimmed := TrimAll(Split(s, ListSeparator));
    var items := NonEmpty(trimmed);
    forall k | 0 <= k < |items| ensures IsTrimmed(items[k]) {
      assert items[k] in trimmed;
      var j :| 0 <= j < |trimmed| && trimmed[j] == items[k];
    }
    items
  }

  /** Non-empty, trimmed items without a `';'` joined by `";;"` are read back as they were. */
  lemma CleanListJoin(items: seq<string>)
    requires |items| >= 1
    requires forall k :: 0 <= k < |items| ==> items[k] != "" && IsTrimmed(items[k]) && ';' !in items[k]
    ensures CleanList(Join(items, ListSeparator)) == items
  {
    assert ListSeparator[0] == ';';
    SplitJoin(items, ListSeparator);
    TrimAllTrimmed(items);
    NonEmptyUnchanged(items);
  }

  /**
   * Pieces without a `';'` joined by `";;"`, padded or blank as they may be,
   * are read back trimmed, with the blank ones dropped.
   */
  lemma CleanListPadded(pieces: seq<string>)
    requires |pieces| >= 1
    requires forall k :: 0 <= k < |pieces| ==> ';' !in pieces[k]
    ensures CleanList(Join(pieces, ListSeparator)) == NonEmpty(TrimAll(pieces))
  {
    assert ListSeparator[0] == ';';
    SplitJoin(pieces, ListSeparator);
  }

  function Max(a: nat, b: nat): (m: nat)
    ensures m >= a && m >= b && (m == a || m == b)
  {
    if a < b then b else a
  }

  /** The student at position `i`: the fallbacks of the loop in `parseStudents`. */
  function StudentAt(idList: seq<string>, nameList: seq<string>, i: nat): Student {
    Student(
      Or(At(idList, i), MissingIdPrefix + Decimal(i)),
      Or(At(nameList, i), Or(At(idList, i), UnknownStudent)))
  }

  /**
   * One student per position of the longer of the two lists. The id is the
   * listed id, else `ID-MISSING-i`, so it is never empty; the name is the
   * listed name, else the listed id, else `"Unknown Student"`.
   */
  function StudentsOf(idList: seq<string>, nameList: seq<string>): (students: seq<Student>)
    ensures |students| == Max(|idList|, |nameList|)
    ensures forall i :: 0 <= i < |students| ==> students[i].id != "" && students[i].name != ""
    ensures forall i :: 0 <= i < |idList| && idList[i] != "" ==> students[i].id == idList[i]
    ensures forall i :: (0 <= i < |students| && (i >= |idList| || idList[i] == "")
      ==> students[i].id == MissingIdPrefix + Decimal(i))
    ensures forall i :: 0 <= i < |nameList| && nameList[i] != "" ==> students[i].name == nameList[i]
    ensures forall i :: (0 <= i < |students| && (i >= |nameList| || nameList[i] == "")
      ==> students[i].name == Or(At(idList, i), UnknownStudent))
  {
    seq(Max(|idList|, |nameList|), i requires 0 <= i => StudentAt(idList, nameList, i))
  }

  /** The students of a record: its parsed ids and names paired up. */
  function Students(ids: string, names: string): (students: seq<Student>)
    ensures |students| == Max(|CleanList(ids)|, |CleanList(names)|)
    ensures forall i :: 0 <= i < |students| ==> students[i].id != "" && students[i].name != ""
  {
    StudentsOf(CleanList(ids), CleanList(names))
  }

  /**
   * A missing id is `ID-MISSING-i`; a missing name is the id given at that
   * position, so no student has an empty id or name and the `"Unknown Student"`
   * default is never reached.
   */
  lemma StudentsFallbacks(ids: string, names: string)
    ensures var students, idList, nameList := Students(ids, names), CleanList(ids), CleanList(names);
      |students| == Max(|idList|, |nameList|)
      && (forall i :: 0 <= i < |idList| ==> students[i].id == idList[i])
      && (forall i :: |idList| <= i < |students| ==> students[i].id == MissingIdPrefix + Decimal(i))
      && (forall i :: 0 <= i < |nameList| ==> students[i].name == nameList[i])
      && (forall i :: |nameList| <= i < |students| ==> students[i].name == idList[i])
      && (forall i :: 0 <= i < |students| ==> students[i].id != "" && students[i].name != "")
  {
  }

  /** `parseStudents`: both lists parsed, then paired up position by position. */
  method ParseStudents(ids: string, names: string) returns (students: seq<Student>)
    ensures students == Students(ids, names)
  {
    var idList := CleanList(ids);
    var nameList := CleanList(names);
    students := PairStudents(idList, nameList);
  }

  /** The loop of `parseStudents`: one student pushed per position of the longer list. */
  method PairStudents(idList: seq<string>, nameList: seq<string>) returns (students: seq<Student>)
    ensures students == StudentsOf(idList, nameList)
  {
    var maxLength := Max(|idList|, |nameList|);
    students := [];
    for i := 0 to maxLength
      invariant |students| == i
      invariant forall k :: 0 <= k < i ==> students[k] == StudentAt(idList, nameList, k)
    {
      var student := Student(
        Or(At(idList, i), MissingIdPrefix + Decimal(i)),
        Or(At(nameList, i), Or(At(idList, i), UnknownStudent)));
      assert student == StudentAt(idList, nameList, i);
      students := students + [student];
    }
  }

  /** Ids and names written as equally many `";;"`-separated items are paired up in order. */
  lemma StudentsPaired(idItems: seq<string>, nameItems: seq<string>)
    requires |idItems| == |nameItems| >= 1
    requires forall k :: 0 <= k < |idItems| ==> idItems[k] != "" && IsTrimmed(idItems[k]) && ';' !in idItems[k]
    requires forall k :: 0 <= k < |nameItems| ==> nameItems[k] != "" && IsTrimmed(nameItems[k]) && ';' !in nameItems[k]
    ensures var students := Students(Join(idItems, ListSeparator), Join(nameItems, ListSeparator));
      |students| == |idItems|
      && forall k :: 0 <= k < |idItems| ==> students[k] == Student(idItems[k], nameItems[k])
  {
    CleanListJoin(idItems);
    CleanListJoin(nameItems);
    StudentsFallbacks(Join(idItems, ListSeparator), Join(nameItems, ListSeparator));
  }

  // ---------------------------------------------------------------------------
  // parseTags

  /**
   * `parseTags`: the names of a `multi_select`; for any other property its text
   * split on `,` or `;`, trimmed, with the empty pieces dropped.
   */
  function ParseTags(tagsRaw: Option<Property>): (tags: seq<string>)
    ensures tagsRaw.None? ==> tags == []
    ensures tagsRaw.Some? && tagsRaw.value.MultiSelect? ==> tags == tagsRaw.value.names
    ensures !(tagsRaw.Some? && tagsRaw.value.MultiSelect?) ==>
      forall k :: 0 <= k < |tags| ==> tags[k] != "" && IsTrimmed(tags[k]) && NoneIn(tags[k], TagSeparators)
  {
    if tagsRaw.None? then []
    else if tagsRaw.value.MultiSelect? then tagsRaw.value.names
    else
      var pieces := SplitAny(GetPropValue(tagsRaw), TagSeparators);
      var trimmed := TrimAll(pieces);
      var tags := NonEmpty(trimmed);
      forall k | 0 <= k < |tags| ensures IsTrimmed(tags[k]) && NoneIn(tags[k], TagSeparators) {
        assert tags[k] in trimmed;
        var j :| 0 <= j < |trimmed| && trimmed[j] == tags[k];
        TrimKeepsNoneIn(pieces[j], TagSeparators);
      }
      tags
  }

  /**
   * Tags that are non-empty, trimmed and free of `,` and `;`, written as a
   * property's text with `,` or `;` between them, parse back to those tags.
   */
  lemma ParseTagsJoin(tagsRaw: Option<Property>, tags: seq<string>, c: char)
    requires tagsRaw.Some? && !tagsRaw.value.MultiSelect?
    requires c in TagSeparators && |tags| >= 1
    requires forall k :: 0 <= k < |tags| ==> tags[k] != "" && IsTrimmed(tags[k]) && NoneIn(tags[k], TagSeparators)
    requires GetPropValue(tagsRaw) == Join(tags, [c])
    ensures ParseTags(tagsRaw) == tags
  {
    SplitAnyJoin(tags, c, TagSeparators);
    TrimAllTrimmed(tags);
    NonEmptyUnchanged(tags);
  }

  /**
   * Pieces free of `,` and `;`, padded or blank as they may be, written as a
   * property's text with `,` or `;` between them, give their trimmed
   * non-blank pieces as tags.
   */
  lemma ParseTagsPadded(tagsRaw: Option<Property>, pieces: seq<string>, c: char)
    requires tagsRaw.Some? && !tagsRaw.value.MultiSelect?
    requires c in TagSeparators && |pieces| >= 1
    requires forall k :: 0 <= k < |pieces| ==> NoneIn(pieces[k], TagSeparators)
    requires GetPropValue(tagsRaw) == Join(pieces, [c])
    ensures ParseTags(tagsRaw) == NonEmpty(TrimAll(pieces))
  {
    SplitAnyJoin(pieces, c, TagSeparators);
  }

  /** A property whose text is one trimmed word without a separator is that one tag. */
  lemma ParseTagsSingle(tagsRaw: Option<Property>)
    requires tagsRaw.Some? && !tagsRaw.value.MultiSelect?
    requires GetPropValue(tagsRaw) != "" && IsTrimmed(GetPropValue(tagsRaw))
    requires NoneIn(GetPropValue(tagsRaw), TagSeparators)
    ensures ParseTags(tagsRaw) == [GetPropValue(tagsRaw)]
  {
    var text := GetPropValue(tagsRaw);
    SplitAnyNoSeparator(text, TagSeparators);
    TrimTrimmed(text);
    assert TrimAll([text]) == [text];
    NonEmptyUnchanged([text]);
  }

  // ---------------------------------------------------------------------------
  // data cards

  function LowerAscii(c: char): char {
    if 'A' <= c <= 'Z' then (c as int + 32) as char else c
  }

  /**
   * `key.toLowerCase().startsWith("datacard")`. Only ASCII letters lower-case
   * to the letters of `"datacard"`, so lower-casing ASCII alone decides it.
   */
  predicate IsDataCardKey(key: string) {
    |key| >= |DataCardPrefix|
    && forall k :: 0 <= k < |DataCardPrefix| ==> LowerAscii(key[k]) == DataCardPrefix[k]
  }

  /** `keys.filter(isDataCardKey)`, in order. */
  function DataCardNames(keys: seq<string>): (cardKeys: seq<string>)
    ensures |cardKeys| <= |keys|
    ensures forall key :: key in cardKeys <==> key in keys && IsDataCardKey(key)
  {
    if |keys| == 0 then []
    else
      assert keys == [keys[0]] + keys[1..];
      (if IsDataCardKey(keys[0]) then [keys[0]] else []) + DataCardNames(keys[1..])
  }

  /** The filter keeps each data-card key as often as it occurs, and nothing else. */
  lemma {:induction false} DataCardNamesCount(keys: seq<string>)
    ensures forall key :: multiset(DataCardNames(keys))[key] == if IsDataCardKey(key) then multiset(keys)[key] else 0
  {
    if |keys| > 0 {
      DataCardNamesCount(keys[1..]);
      assert keys == [keys[0]] + keys[1..];
      assert multiset(keys) == multiset([keys[0]]) + multiset(keys[1..]);
    }
  }

  /** One key is kept exactly when it is a data-card key. */
  lemma DataCardNamesSingle(key: string)
    ensures DataCardNames([key]) == if IsDataCardKey(key) then [key] else []
  {
    assert [key][1..] == [];
  }

  /** The filter distributes over concatenation, so the kept keys stay in order. */
  lemma {:induction false} DataCardNamesAppend(a: seq<string>, b: seq<string>)
    ensures DataCardNames(a + b) == DataCardNames(a) + DataCardNames(b)
  {
    if |a| > 0 {
      var head := if IsDataCardKey(a[0]) then [a[0]] else [];
      assert (a + b)[0] == a[0];
      assert (a + b)[1..] == a[1..] + b;
      assert DataCardNames(a + b) == head + DataCardNames(a[1..] + b);
      assert DataCardNames(a) == head + DataCardNames(a[1..]);
      DataCardNamesAppend(a[1..], b);
      assert head + (DataCardNames(a[1..]) + DataCardNames(b)) == (head + DataCardNames(a[1..])) + DataCardNames(b);
    } else {
      assert a + b == b;
    }
  }

  /** The data-card keys of a record in `sort()` order. */
  function DataCardKeys(props: Properties): (keys: seq<string>)
    ensures Sorted(keys)
    ensures forall key :: key in keys <==> key in Names(props) && IsDataCardKey(key)
    ensures multiset(keys) == multiset(DataCardNames(Names(props)))
  {
    var keys := SortStrings(DataCardNames(Names(props)));
    assert forall key :: key in keys <==> key in DataCardNames(Names(props)) by {
      forall key ensures key in keys <==> key in DataCardNames(Names(props)) {
        assert key in keys <==> key in multiset(keys);
      }
    }
    keys
  }

  /** A list without repeats holds each element once. */
  lemma {:induction false} DistinctOnce(xs: seq<string>)
    requires forall i, j :: 0 <= i < j < |xs| ==> xs[i] != xs[j]
    ensures forall x :: multiset(xs)[x] <= 1
  {
    if |xs| > 0 {
      DistinctOnce(xs[1..]);
      assert xs == [xs[0]] + xs[1..];
      assert multiset(xs) == multiset([xs[0]]) + multiset(xs[1..]);
      assert xs[0] !in xs[1..];
    }
  }

  /**
   * A record's data-card keys occur as often as among its property names, and
   * no other name occurs; with distinct names, every data-card key occurs once.
   */
  lemma DataCardKeysCount(props: Properties)
    ensures forall key :: multiset(DataCardKeys(props))[key] == if IsDataCardKey(key) then multiset(Names(props))[key] else 0
    ensures (forall i, j :: 0 <= i < j < |props| ==> props[i].0 != props[j].0)
      ==> forall key :: multiset(DataCardKeys(props))[key] <= 1
  {
    DataCardNamesCount(Names(props));
    if forall i, j :: 0 <= i < j < |props| ==> props[i].0 != props[j].0 {
      DistinctOnce(Names(props));
    }
  }

  /** `values.map(val => val.split(";;").map(trim))`: one card per value. */
  function Card(value: string): (card: seq<string>)
    ensures |card| >= 1
    ensures forall k :: 0 <= k < |card| ==> IsTrimmed(card[k])
  {
    TrimAll(Split(value, ListSeparator))
  }

  /** The text of each key's property, in key order. */
  function KeyValues(props: Properties, keys: seq<string>): seq<string> {
    seq(|keys|, k requires 0 <= k < |keys| => GetPropValue(Lookup(props, keys[k])))
  }

  function Cards(values: seq<string>): seq<seq<string>> {
    seq(|values|, k requires 0 <= k < |values| => Card(values[k]))
  }

  /**
   * The data cards of a record: the non-empty values of its data-card keys, in
   * key order. There is at most one card per occurrence of a key among the
   * record's names (`DataCardKeysCount`), and every card has an item.
   */
  function DataCards(props: Properties): (cards: seq<seq<string>>)
    ensures |cards| <= |DataCardKeys(props)|
    ensures forall k :: 0 <= k < |cards| ==> |cards[k]| >= 1
    ensures forall k, j :: 0 <= k < |cards| && 0 <= j < |cards[k]| ==> IsTrimmed(cards[k][j])
  {
    Cards(NonEmpty(KeyValues(props, DataCardKeys(props))))
  }

  /** Every data-card key with a non-empty value gives a card. */
  lemma DataCardsComplete(props: Properties, key: string)
    requires key in DataCardKeys(props) && GetPropValue(Lookup(props, key)) != ""
    ensures Card(GetPropValue(Lookup(props, key))) in DataCards(props)
  {
    var keys := DataCardKeys(props);
    var values := KeyValues(props, keys);
    var filled := NonEmpty(values);
    var j :| 0 <= j < |keys| && keys[j] == key;
    assert values[j] in filled;
    var k :| 0 <= k < |filled| && filled[k] == values[j];
    assert Cards(filled)[k] == Card(values[j]);
  }

  /** Every card is the split and trimmed non-empty value of a data-card key. */
  lemma DataCardsSound(props: Properties, card: seq<string>)
    requires card in DataCards(props)
    ensures exists key :: (key in DataCardKeys(props)
      && GetPropValue(Lookup(props, key)) != "" && card == Card(GetPropValue(Lookup(props, key))))
  {
    var keys := DataCardKeys(props);
    var values := KeyValues(props, keys);
    var filled := NonEmpty(values);
    var k :| 0 <= k < |filled| && Cards(filled)[k] == card;
    assert filled[k] in values;
    var j :| 0 <= j < |keys| && values[j] == filled[k];
    assert keys[j] in keys;
  }

  /** When every data-card value is filled in, card `k` is the value of the `k`-th key in order. */
  lemma DataCardsAllFilled(props: Properties)
    requires forall key :: key in DataCardKeys(props) ==> GetPropValue(Lookup(props, key)) != ""
    ensures |DataCards(props)| == |DataCardKeys(props)|
    ensures forall k :: (0 <= k < |DataCardKeys(props)|
      ==> DataCards(props)[k] == Card(GetPropValue(Lookup(props, DataCardKeys(props)[k]))))
  {
    var keys := DataCardKeys(props);
    var values := KeyValues(props, keys);
    forall k | 0 <= k < |values| ensures values[k] != "" {
      assert keys[k] in keys;
    }
    NonEmptyUnchanged(values);
  }

  /** A card whose items carry no surrounding white space joins back into its value. */
  /**
   * Pieces without a `';'` joined by `";;"`, padded or blank as they may be,
   * give their trimmed pieces as the card, blank ones included.
   */
  lemma CardPadded(pieces: seq<string>)
    requires |pieces| >= 1
    requires forall k :: 0 <= k < |pieces| ==> ';' !in pieces[k]
    ensures Card(Join(pieces, ListSeparator)) == TrimAll(pieces)
  {
    assert ListSeparator[0] == ';';
    SplitJoin(pieces, ListSeparator);
  }

  lemma CardJoin(value: string)
    requires forall k :: 0 <= k < |Split(value, ListSeparator)| ==> IsTrimmed(Split(value, ListSeparator)[k])
    ensures Join(Card(value), ListSeparator) == value
  {
    TrimAllTrimmed(Split(value, ListSeparator));
  }

  // ---------------------------------------------------------------------------
  // the record projections

  /** `record.id || Math.random().toString()`: `randomId` stands for the random draw. */
  function RecordId(row: Row, randomId: string): (id: string)
    ensures Str(row.id) != "" ==> id == row.id.value
    ensures Str(row.id) == "" ==> id == randomId
  {
    Or(Str(row.id), randomId)
  }

  /** `getPropValue(props.Name) || "Untitled Project"`. */
  function ProjectName(props: Properties): (name: string)
    ensures name != ""
    ensures GetPropValue(Lookup(props, "Name")) != "" ==> name == GetPropValue(Lookup(props, "Name"))
    ensures GetPropValue(Lookup(props, "Name")) == "" ==> name == UntitledProject
  {
    Or(GetPropValue(Lookup(props, "Name")), UntitledProject)
  }

  /** `a || b` on two looked-up properties: a present, non-null `a` wins. */
  function Either(a: Option<Property>, b: Option<Property>): (prop: Option<Property>)
    ensures a.Some? ==> prop == a
    ensures a.None? ==> prop == b
  {
    if a.Some? then a else b
  }

  /** `imageUrls[0] || placeholder` for the URLs of the `mainImage` property. */
  function MainImage(props: Properties): (image: string)
    ensures image != ""
    ensures GetFileUrls(Lookup(props, "mainImage")) != [] ==> image == GetFileUrls(Lookup(props, "mainImage"))[0]
    ensures GetFileUrls(Lookup(props, "mainImage")) == [] ==> image == PlaceholderImage
  {
    Or(At(GetFileUrls(Lookup(props, "mainImage")), 0), PlaceholderImage)
  }

  /** The URLs of the `Gallery` property, or the placeholder alone when there are none. */
  function Gallery(props: Properties): (gallery: seq<string>)
    ensures gallery != []
    ensures forall k :: 0 <= k < |gallery| ==> gallery[k] != ""
    ensures GetFileUrls(Lookup(props, "Gallery")) != [] ==> gallery == GetFileUrls(Lookup(props, "Gallery"))
    ensures GetFileUrls(Lookup(props, "Gallery")) == [] ==> gallery == [PlaceholderImage]
  {
    var urls := GetFileUrls(Lookup(props, "Gallery"));
    if |urls| > 0 then urls else [PlaceholderImage]
  }

  /**
   * The students of a record: one per position of the longer of its parsed
   * `StudentID` and `StudentName` lists, the listed ids and names in order,
   * and none with an empty id or name.
   */
  predicate StudentsOfRecord(students: seq<Student>, props: Properties) {
    var idList := CleanList(GetPropValue(Lookup(props, "StudentID")));
    var nameList := CleanList(GetPropValue(Lookup(props, "StudentName")));
    |students| == Max(|idList|, |nameList|)
    && (forall k :: 0 <= k < |idList| ==> students[k].id == idList[k])
    && (forall k :: |idList| <= k < |students| ==> students[k].id == MissingIdPrefix + Decimal(k))
    && (forall k :: 0 <= k < |nameList| ==> students[k].name == nameList[k])
    && (forall k :: |nameList| <= k < |idList| ==> students[k].name == idList[k])
    && (forall k :: 0 <= k < |students| ==> students[k].id != "" && students[k].name != "")
  }

  /**
   * The tags read from `prop`: none when it is missing, the option names of a
   * multi-select, and otherwise non-empty, trimmed words free of `,` and `;`.
   */
  predicate TagsOf(tags: seq<string>, prop: Option<Property>) {
    (prop.None? ==> tags == [])
    && (prop.Some? && prop.value.MultiSelect? ==> tags == prop.value.names)
    && (!(prop.Some? && prop.value.MultiSelect?) ==>
      forall k :: 0 <= k < |tags| ==> tags[k] != "" && IsTrimmed(tags[k]) && NoneIn(tags[k], TagSeparators))
  }

  /** The students parsed from a record's columns are its students. */
  lemma RecordStudents(props: Properties)
    ensures StudentsOfRecord(
      Students(GetPropValue(Lookup(props, "StudentID")), GetPropValue(Lookup(props, "StudentName"))), props)
  {
    StudentsFallbacks(GetPropValue(Lookup(props, "StudentID")), GetPropValue(Lookup(props, "StudentName")));
  }

  /** The tags `ParseTags` reads from a property are its tags. */
  lemma PropertyTags(prop: Option<Property>)
    ensures TagsOf(ParseTags(prop), prop)
  {
  }

  /** One record of the first theme's database as a project. */
  function ToTheme1Project(row: Row, randomId: string): (project: Theme1Project)
    ensures Str(row.id) != "" ==> project.id == row.id.value
    ensures Str(row.id) == "" ==> project.id == randomId
    ensures project.name != ""
    ensures GetPropValue(Lookup(row.properties, "Name")) != ""
      ==> project.name == GetPropValue(Lookup(row.properties, "Name"))
    ensures GetPropValue(Lookup(row.properties, "Name")) == "" ==> project.name == UntitledProject
    ensures project.mainImage != ""
    ensures GetFileUrls(Lookup(row.properties, "mainImage")) != []
      ==> project.mainImage == GetFileUrls(Lookup(row.properties, "mainImage"))[0]
    ensures GetFileUrls(Lookup(row.properties, "mainImage")) == [] ==> project.mainImage == PlaceholderImage
    ensures StudentsOfRecord(project.students, row.properties)
    ensures TagsOf(project.tags, Lookup(row.properties, "Tags"))
    ensures project.tags == ParseTags(Lookup(row.properties, "Tags"))
    ensures project.dataCards == DataCards(row.properties)
    ensures |project.dataCards| <= |DataCardKeys(row.properties)|
    ensures forall k :: 0 <= k < |project.dataCards| ==> |project.dataCards[k]| >= 1
    ensures project.year == GetPropValue(Lookup(row.properties, "year"))
      && project.projectIntro == GetPropValue(Lookup(row.properties, "ProjectIntro"))
      && project.group == GetPropValue(Lookup(row.properties, "Group"))
      && project.answer == GetPropValue(Lookup(row.properties, "Answer"))
  {
    var props := row.properties;
    var ids, names := GetPropValue(Lookup(props, "StudentID")), GetPropValue(Lookup(props, "StudentName"));
    RecordStudents(props);
    PropertyTags(Lookup(props, "Tags"));
    Theme1Project(
      RecordId(row, randomId),
      ProjectName(props),
      GetPropValue(Lookup(props, "year")),
      GetPropValue(Lookup(props, "ProjectIntro")),
      ParseTags(Lookup(props, "Tags")),
      GetPropValue(Lookup(props, "Group")),
      Students(ids, names),
      MainImage(props),
      DataCards(props),
      GetPropValue(Lookup(props, "Answer")))
  }

  /** One record of the second theme's database as a project. */
  function ToTheme2Project(row: Row, randomId: string): (project: Theme2Project)
    ensures Str(row.id) != "" ==> project.id == row.id.value
    ensures Str(row.id) == "" ==> project.id == randomId
    ensures project.name != ""
    ensures GetPropValue(Lookup(row.properties, "Name")) != ""
      ==> project.name == GetPropValue(Lookup(row.properties, "Name"))
    ensures GetPropValue(Lookup(row.properties, "Name")) == "" ==> project.name == UntitledProject
    ensures project.gallery != [] && forall k :: 0 <= k < |project.gallery| ==> project.gallery[k] != ""
    ensures GetFileUrls(Lookup(row.properties, "Gallery")) != []
      ==> project.gallery == GetFileUrls(Lookup(row.properties, "Gallery"))
    ensures GetFileUrls(Lookup(row.properties, "Gallery")) == [] ==> project.gallery == [PlaceholderImage]
    ensures project.captions == Card(GetPropValue(Lookup(row.properties, "Caption")))
    ensures |project.captions| >= 1 && forall k :: 0 <= k < |project.captions| ==> IsTrimmed(project.captions[k])
    ensures StudentsOfRecord(project.students, row.properties)
    ensures Lookup(row.properties, "Tag").Some? ==>
      (TagsOf(project.tags, Lookup(row.properties, "Tag")) && project.tags == ParseTags(Lookup(row.properties, "Tag")))
    ensures Lookup(row.properties, "Tag").None? ==>
      (TagsOf(project.tags, Lookup(row.properties, "Tags")) && project.tags == ParseTags(Lookup(row.properties, "Tags")))
    ensures Lookup(row.properties, "Year").Some? ==> project.year == GetPropValue(Lookup(row.properties, "Year"))
    ensures Lookup(row.properties, "Year").None? ==> project.year == GetPropValue(Lookup(row.properties, "year"))
    ensures project.projectIntro == GetPropValue(Lookup(row.properties, "ProjectIntro"))
      && project.group == GetPropValue(Lookup(row.properties, "Group"))
      && project.videoUrl == GetPropValue(Lookup(row.properties, "VideoURL"))
  {
    var props := row.properties;
    var ids, names := GetPropValue(Lookup(props, "StudentID")), GetPropValue(Lookup(props, "StudentName"));
    RecordStudents(props);
    PropertyTags(Either(Lookup(props, "Tag"), Lookup(props, "Tags")));
    Theme2Project(
      RecordId(row, randomId),
      ProjectName(props),
      GetPropValue(Either(Lookup(props, "Year"), Lookup(props, "year"))),
      GetPropValue(Lookup(props, "ProjectIntro")),
      ParseTags(Either(Lookup(props, "Tag"), Lookup(props, "Tags"))),
      GetPropValue(Lookup(props, "Group")),
      Students(ids, names),
      Gallery(props),
      Card(GetPropValue(Lookup(props, "Caption"))),
      GetPropValue(Lookup(props, "VideoURL")))
  }

  /** `records.map(...)` for the first theme; `draws[k]` stands for record `k`'s random id. */
  function Theme1Projects(records: seq<Row>, draws: seq<string>): (projects: seq<Theme1Project>)
    requires |draws| == |records|
    ensures |projects| == |records|
    ensures forall k :: 0 <= k < |records| ==> projects[k].name != "" && projects[k].mainImage != ""
    ensures forall k :: 0 <= k < |records| && Str(records[k].id) != "" ==> projects[k].id == records[k].id.value
    ensures forall k :: 0 <= k < |records| ==> projects[k] == ToTheme1Project(records[k], draws[k])
  {
    seq(|records|, k requires 0 <= k < |records| => ToTheme1Project(records[k], draws[k]))
  }

  /** `records.map(...)` for the second theme; `draws[k]` stands for record `k`'s random id. */
  function Theme2Projects(records: seq<Row>, draws: seq<string>): (projects: seq<Theme2Project>)
    requires |draws| == |records|
    ensures |projects| == |records|
    ensures forall k :: 0 <= k < |records| ==> projects[k].name != "" && projects[k].gallery != []
    ensures forall k :: 0 <= k < |records| && Str(records[k].id) != "" ==> projects[k].id == records[k].id.value
    ensures forall k :: 0 <= k < |records| ==> projects[k] == ToTheme2Project(records[k], draws[k])
  {
    seq(|records|, k requires 0 <= k < |records| => ToTheme2Project(records[k], draws[k]))
  }
}

=== FILE: js_string.dfy ===
/**
 * The JavaScript string and array primitives that the services rely on
 * (`||` on strings, `join`, `split`, `trim`, `filter(Boolean)`, `slice`,
 * `String(n)`, UTF-16 code units, `ToInt32`, `includes`, the default
 * `sort`), each written out with its ECMAScript behaviour.
 */
module JsString {

  datatype Option<+T> = None | Some(value: T)

  /** A possibly undefined string as it reads in a falsy test: `undefined` is `""`. */
  function Str(o: Option<string>): string {
    if o.Some? then o.value else ""
  }

  /** `s || d` for a string: the empty string is falsy. */
  function Or(s: string, d: string): string {
    if s != "" then s else d
  }

  /** `xs[i]` read as a string, `undefined` (so `""`) past the end. */
  function At(xs: seq<string>, i: nat): string {
    if i < |xs| then xs[i] else ""
  }

  /** `xs.slice(0, n)`. */
  function Take<T>(xs: seq<T>, n: nat): (ys: seq<T>)
    ensures ys <= xs
    ensures |ys| == if |xs| < n then |xs| else n
  {
    if |xs| <= n then xs else xs[..n]
  }

  /** The sum of the lengths of `parts`. */
  function TotalLength(parts: seq<string>): nat {
    if |parts| == 0 then 0 else |parts[0]| + TotalLength(parts[1..])
  }

  /**
   * `parts.join(sep)`: the parts in order with one separator between each two,
   * so the first part starts the result and no character is added or lost.
   */
  function Join(parts: seq<string>, sep: string): (joined: string)
    ensures |parts| == 0 ==> joined == ""
    ensures |parts| >= 1 ==> parts[0] <= joined
    ensures |parts| >= 1 ==> |joined| == TotalLength(parts) + (|parts| - 1) * |sep|
  {
    if |parts| == 0 then ""
    else if |parts| == 1 then parts[0]
    else
      var rest := Join(parts[1..], sep);
      assert (|parts| - 1) * |sep| == (|parts[1..]| - 1) * |sep| + |sep|;
      parts[0] + sep + rest
  }

  // ---------------------------------------------------------------------------
  // split

  /**
   * `s.split(sep)` for a non-empty literal separator. The string is scanned left
   * to right and cut at each occurrence, which is then skipped, so `"a;;;b"`
   * splits on `";;"` into `["a", ";b"]`; the empty string gives `[""]`.
   */
  function Split(s: string, sep: string): (pieces: seq<string>)
    requires sep != ""
    ensures |pieces| >= 1
    ensures Join(pieces, sep) == s
  {
    JoinSplitFrom(s, sep, "");
    assert "" + s == s;
    SplitFrom(s, sep, "")
  }

  /** Splitting the rest `s` of the input while `piece` is the piece read so far. */
  function SplitFrom(s: string, sep: string, piece: string): (pieces: seq<string>)
    requires sep != ""
    ensures |pieces| >= 1
    decreases |s|
  {
    if |s| == 0 then [piece]
    else if sep <= s then [piece] + SplitFrom(s[|sep|..], sep, "")
    else SplitFrom(s[1..], sep, piece + [s[0]])
  }

  lemma {:induction false} JoinSplitFrom(s: string, sep: string, piece: string)
    requires sep != ""
    ensures Join(SplitFrom(s, sep, piece), sep) == piece + s
    decreases |s|
  {
    if |s| == 0 {
    } else if sep <= s {
      var rest := SplitFrom(s[|sep|..], sep, "");
      JoinSplitFrom(s[|sep|..], sep, "");
      assert ([piece] + rest)[1..] == rest;
      assert s == sep + s[|sep|..];
    } else {
      JoinSplitFrom(s[1..], sep, piece + [s[0]]);
      assert piece + [s[0]] + s[1..] == piece + s;
    }
  }

  /** A stretch `x` in which the separator cannot start is read into the current piece. */
  lemma {:induction false} SplitFromPlain(x: string, sep: string, piece: string, tail: string)
    requires sep != "" && sep[0] !in x
    ensures SplitFrom(x + tail, sep, piece) == SplitFrom(tail, sep, piece + x)
    decreases |x|
  {
    if |x| == 0 {
      assert x + tail == tail && piece + x == piece;
    } else {
      var s := x + tail;
      assert s[0] == x[0] && s[1..] == x[1..] + tail;
      assert x[0] != sep[0];
      SplitFromPlain(x[1..], sep, piece + [x[0]], tail);
      assert piece + [x[0]] + x[1..] == piece + x;
    }
  }

  /**
   * Splitting joined parts gives the parts back, when the separator's first
   * character occurs in none of them.
   */
  lemma {:induction false} SplitJoin(parts: seq<string>, sep: string)
    requires sep != "" && |parts| >= 1
    requires forall k :: 0 <= k < |parts| ==> sep[0] !in parts[k]
    ensures Split(Join(parts, sep), sep) == parts
  {
    var rest := if |parts| == 1 then "" else sep + Join(parts[1..], sep);
    assert Join(parts, sep) == parts[0] + rest;
    SplitFromPlain(parts[0], sep, "", rest);
    assert "" + parts[0] == parts[0];
    if |parts| > 1 {
      var tail := Join(parts[1..], sep);
      assert sep <= rest && rest[|sep|..] == tail;
      SplitJoin(parts[1..], sep);
      assert parts == [parts[0]] + parts[1..];
    }
  }

  /** No character of `s` is in `chars`. */
  predicate NoneIn(s: string, chars: set<char>) {
    forall j :: 0 <= j < |s| ==> s[j] !in chars
  }

  /** `s.split(/[...]/)` for a regular expression that is one character class. */
  function SplitAny(s: string, seps: set<char>): (pieces: seq<string>)
    ensures |pieces| >= 1
    ensures forall k :: 0 <= k < |pieces| ==> NoneIn(pieces[k], seps)
  {
    SplitAnyFrom(s, seps, "")
  }

  function SplitAnyFrom(s: string, seps: set<char>, piece: string): (pieces: seq<string>)
    requires NoneIn(piece, seps)
    ensures |pieces| >= 1
    ensures forall k :: 0 <= k < |pieces| ==> NoneIn(pieces[k], seps)
    decreases |s|
  {
    if |s| == 0 then [piece]
    else if s[0] in seps then [piece] + SplitAnyFrom(s[1..], seps, "")
    else SplitAnyFrom(s[1..], seps, piece + [s[0]])
  }

  /** Text without a separator splits into one piece: itself (after what was already gathered). */
  lemma {:induction false} SplitAnyFromNoSeparator(s: string, seps: set<char>, piece: string)
    requires NoneIn(piece, seps) && NoneIn(s, seps)
    ensures SplitAnyFrom(s, seps, piece) == [piece + s]
    decreases |s|
  {
    if |s| == 0 {
      assert piece + s == piece;
    } else {
      assert s[0] !in seps;
      assert NoneIn(s[1..], seps) by {
        forall j | 0 <= j < |s[1..]| ensures s[1..][j] !in seps {
          assert s[1..][j] == s[j + 1];
        }
      }
      SplitAnyFromNoSeparator(s[1..], seps, piece + [s[0]]);
      assert piece + [s[0]] + s[1..] == piece + s;
    }
  }

  lemma SplitAnyNoSeparator(s: string, seps: set<char>)
    requires NoneIn(s, seps)
    ensures SplitAny(s, seps) == [s]
  {
    SplitAnyFromNoSeparator(s, seps, "");
    assert "" + s == s;
  }

  /** A stretch `x` without a separator is read into the current piece. */
  lemma {:induction false} SplitAnyFromPlain(x: string, seps: set<char>, piece: string, tail: string)
    requires NoneIn(piece, seps) && NoneIn(x, seps)
    ensures NoneIn(piece + x, seps)
    ensures SplitAnyFrom(x + tail, seps, piece) == SplitAnyFrom(tail, seps, piece + x)
    decreases |x|
  {
    if |x| == 0 {
      assert x + tail == tail && piece + x == piece;
    } else {
      var s := x + tail;
      assert s[0] == x[0] && s[1..] == x[1..] + tail;
      assert x[0] !in seps;
      assert NoneIn(x[1..], seps) by {
        forall j | 0 <= j < |x[1..]| ensures x[1..][j] !in seps {
          assert x[1..][j] == x[j + 1];
        }
      }
      assert NoneIn(piece + [x[0]], seps) by {
        forall j | 0 <= j < |piece + [x[0]]| ensures (piece + [x[0]])[j] !in seps {
          if j < |piece| {
            assert (piece + [x[0]])[j] == piece[j];
          }
        }
      }
      SplitAnyFromPlain(x[1..], seps, piece + [x[0]], tail);
      assert piece + [x[0]] + x[1..] == piece + x;
    }
  }

  /**
   * Parts without a separator character, joined by one of the separators,
   * split back into those parts.
   */
  lemma {:induction false} SplitAnyJoin(parts: seq<string>, c: char, seps: set<char>)
    requires c in seps && |parts| >= 1
    requires forall k :: 0 <= k < |parts| ==> NoneIn(parts[k], seps)
    ensures SplitAny(Join(parts, [c]), seps) == parts
  {
    var rest := if |parts| == 1 then "" else [c] + Join(parts[1..], [c]);
    assert Join(parts, [c]) == parts[0] + rest;
    SplitAnyFromPlain(parts[0], seps, "", rest);
    assert "" + parts[0] == parts[0];
    if |parts| == 1 {
      assert parts == [parts[0]];
    } else {
      var tail := Join(parts[1..], [c]);
      assert rest[0] == c && rest[1..] == tail;
      SplitAnyJoin(parts[1..], c, seps);
      assert parts == [parts[0]] + parts[1..];
    }
  }

  // ---------------------------------------------------------------------------
  // trim

  /** ECMAScript WhiteSpace and LineTerminator: what `trim` removes. */
  predicate IsWhitespace(c: char) {
    c == '\t' || c == '\n' || c == '\U{000B}' || c == '\U{000C}' || c == '\r' || c == ' '
    || c == '\U{00A0}' || c == '\U{1680}' || ('\U{2000}' <= c <= '\U{200A}')
    || c == '\U{2028}' || c == '\U{2029}' || c == '\U{202F}' || c == '\U{205F}'
    || c == '\U{3000}' || c == '\U{FEFF}'
  }

  /** Neither end of `s` is white space. */
  predicate IsTrimmed(s: string) {
    s == "" || (!IsWhitespace(s[0]) && !IsWhitespace(s[|s| - 1]))
  }

  /** The length of the run of white space that starts `s`. */
  function LeadingSpace(s: string): (n: nat)
    ensures n <= |s|
    ensures forall k :: 0 <= k < n ==> IsWhitespace(s[k])
    ensures n < |s| ==> !IsWhitespace(s[n])
  {
    if |s| > 0 && IsWhitespace(s[0]) then 1 + LeadingSpace(s[1..]) else 0
  }

  /** The length of the run of white space that ends `s`. */
  function TrailingSpace(s: string): (n: nat)
    ensures n <= |s|
    ensures forall k :: |s| - n <= k < |s| ==> IsWhitespace(s[k])
    ensures n < |s| ==> !IsWhitespace(s[|s| - n - 1])
  {
    if |s| > 0 && IsWhitespace(s[|s| - 1]) then 1 + TrailingSpace(s[..|s| - 1]) else 0
  }

  /** `s.trim()`: `s` without the white space at either end. */
  function Trim(s: string): (t: string)
    ensures IsTrimmed(t)
    ensures LeadingSpace(s) + |t| <= |s| && t == s[LeadingSpace(s)..LeadingSpace(s) + |t|]
    ensures forall k :: LeadingSpace(s) + |t| <= k < |s| ==> IsWhitespace(s[k])
  {
    var rest := s[LeadingSpace(s)..];
    rest[..|rest| - TrailingSpace(rest)]
  }

  /** Trimming removes characters only, so it adds none of a forbidden set. */
  lemma TrimKeepsNoneIn(s: string, chars: set<char>)
    requires NoneIn(s, chars)
    ensures NoneIn(Trim(s), chars)
  {
    var t, a := Trim(s), LeadingSpace(s);
    forall j | 0 <= j < |t| ensures t[j] !in chars {
      assert t[j] == s[a + j];
    }
  }

  /** Trimming text that has no white space at either end changes nothing. */
  predicate AllWhitespace(w: string) {
    forall k :: 0 <= k < |w| ==> IsWhitespace(w[k])
  }

  /** Trimming removes exactly the white space padding a trimmed text. */
  lemma TrimPadded(w1: string, x: string, w2: string)
    requires AllWhitespace(w1) && AllWhitespace(w2) && IsTrimmed(x)
    ensures Trim(w1 + x + w2) == x
  {
    var s := w1 + x + w2;
    var n := LeadingSpace(s);
    if x == "" {
      assert forall k :: 0 <= k < |s| ==> s[k] == (w1 + w2)[k];
      assert n == |s|;
      assert s[n..] == [];
    } else {
      assert forall k :: 0 <= k < |w1| ==> s[k] == w1[k];
      assert s[|w1|] == x[0];
      assert n == |w1|;
      var rest := s[n..];
      assert rest == x + w2;
      var m := TrailingSpace(rest);
      assert forall k :: |x| <= k < |rest| ==> rest[k] == w2[k - |x|];
      assert rest[|x| - 1] == x[|x| - 1];
      assert m == |w2|;
      assert rest[..|rest| - m] == x;
    }
  }

  lemma TrimTrimmed(s: string)
    requires IsTrimmed(s)
    ensures Trim(s) == s
  {
    assert LeadingSpace(s) == 0;
    assert TrailingSpace(s) == 0;
  }

  /** `xs.map(s => s.trim())`. */
  function TrimAll(xs: seq<string>): (ys: seq<string>)
    ensures |ys| == |xs|
    ensures forall k :: 0 <= k < |ys| ==> ys[k] == Trim(xs[k])
  {
    seq(|xs|, k requires 0 <= k < |xs| => Trim(xs[k]))
  }

  /** Trimming strings that carry no surrounding white space changes none of them. */
  lemma TrimAllTrimmed(xs: seq<string>)
    requires forall k :: 0 <= k < |xs| ==> IsTrimmed(xs[k])
    ensures TrimAll(xs) == xs
  {
    forall k | 0 <= k < |xs| ensures Trim(xs[k]) == xs[k] {
      TrimTrimmed(xs[k]);
    }
  }

  /** `xs.filter(Boolean)` on strings: drops the empty ones and keeps the order. */
  function NonEmpty(xs: seq<string>): (ys: seq<string>)
    ensures |ys| <= |xs|
    ensures forall k :: 0 <= k < |ys| ==> ys[k] != ""
    ensures forall x :: x in ys <==> x in xs && x != ""
  {
    if |xs| == 0 then []
    else
      assert xs == [xs[0]] + xs[1..];
      (if xs[0] != "" then [xs[0]] else []) + NonEmpty(xs[1..])
  }

  /** `filter(Boolean)` of one string keeps it exactly when it is non-empty. */
  lemma NonEmptySingle(x: string)
    ensures x != "" ==> NonEmpty([x]) == [x]
    ensures x == "" ==> NonEmpty([x]) == []
  {
    assert [x][1..] == [];
  }

  /** `filter(Boolean)` works element by element: it keeps the order and the repetitions. */
  lemma {:induction false} NonEmptyAppend(a: seq<string>, b: seq<string>)
    ensures NonEmpty(a + b) == NonEmpty(a) + NonEmpty(b)
  {
    if |a| == 0 {
      assert a + b == b;
    } else {
      var head := if a[0] != "" then [a[0]] else [];
      assert (a + b)[0] == a[0] && (a + b)[1..] == a[1..] + b;
      assert NonEmpty(a + b) == head + NonEmpty(a[1..] + b);
      assert NonEmpty(a) == head + NonEmpty(a[1..]);
      NonEmptyAppend(a[1..], b);
    }
  }

  /** Filtering strings that are all non-empty changes nothing. */
  lemma {:induction false} NonEmptyUnchanged(xs: seq<string>)
    requires forall k :: 0 <= k < |xs| ==> xs[k] != ""
    ensures NonEmpty(xs) == xs
  {
    if |xs| > 0 {
      NonEmptyUnchanged(xs[1..]);
      assert xs == [xs[0]] + xs[1..];
    }
  }

  // ---------------------------------------------------------------------------
  // String(n) for integral numbers

  predicate IsDigit(c: char) {
    '0' <= c <= '9'
  }

  function DigitChar(d: nat): (c: char)
    requires d < 10
    ensures IsDigit(c) && c as int - '0' as int == d
  {
    ('0' as int + d) as char
  }

  /** The decimal digits of `n`, most significant first, without leading zeros. */
  function NatDigits(n: nat): (s: string)
    ensures |s| >= 1
    ensures AllDigits(s)
    ensures s[0] == '0' ==> n == 0 && s == "0"
  {
    if n < 10 then [DigitChar(n)] else NatDigits(n / 10) + [DigitChar(n % 10)]
  }

  /**
   * `String(n)` for an integral number whose magnitude is below 10^21: a `-`
   * exactly for a negative number, then its digits without leading zeros.
   */
  function Decimal(n: int): (s: string)
    ensures s != "" && (s[0] == '-' <==> n < 0)
    ensures n < 0 ==> |s| >= 2 && AllDigits(s[1..]) && s[1] != '0'
    ensures n >= 0 ==> AllDigits(s) && (s[0] == '0' ==> s == "0")
  {
    if n < 0 then "-" + NatDigits(-n) else NatDigits(n)
  }

  predicate AllDigits(s: string) {
    forall k :: 0 <= k < |s| ==> IsDigit(s[k])
  }

  /** A string of the form `String(n)` produces: an optional `-` and at least one digit. */
  predicate IsDecimal(s: string) {
    if |s| > 0 && s[0] == '-' then |s| >= 2 && AllDigits(s[1..]) else |s| >= 1 && AllDigits(s)
  }

  function DigitsValue(s: string): nat
    requires AllDigits(s)
  {
    if |s| == 0 then 0
    else
      assert IsDigit(s[|s| - 1]);
      DigitsValue(s[..|s| - 1]) * 10 + (s[|s| - 1] as int - '0' as int)
  }

  /** The number a decimal string denotes (what `Number(s)` gives back). */
  function DecimalValue(s: string): int
    requires IsDecimal(s)
  {
    if |s| > 0 && s[0] == '-' then -(DigitsValue(s[1..]) as int) else DigitsValue(s)
  }

  lemma {:induction false} NatDigitsValue(n: nat)
    ensures DigitsValue(NatDigits(n)) == n
  {
    if n >= 10 {
      var s := NatDigits(n);
      NatDigitsValue(n / 10);
      assert s[..|s| - 1] == NatDigits(n / 10);
    }
  }

  /** `String(n)` is a decimal string that reads back as `n`. */
  lemma DecimalRoundTrip(n: int)
    ensures Decimal(n) != "" && IsDecimal(Decimal(n))
    ensures DecimalValue(Decimal(n)) == n
  {
    if n < 0 {
      NatDigitsValue(-n);
      assert Decimal(n)[1..] == NatDigits(-n);
    } else {
      NatDigitsValue(n);
    }
  }

  // ---------------------------------------------------------------------------
  // UTF-16 code units, as `length`, `charCodeAt` and `sort` see a string

  /** The UTF-16 code units of one Unicode scalar value. */
  function CodeUnits(c: char): (u: seq<int>)
    ensures 1 <= |u| <= 2
    ensures forall k :: 0 <= k < |u| ==> 0 <= u[k] < 0x1_0000
  {
    if c as int < 0x1_0000 then [c as int]
    else
      var v := c as int - 0x1_0000;
      [0xD800 + v / 0x400, 0xDC00 + v % 0x400]
  }

  /** The UTF-16 code units of `s`: the values of `s.charCodeAt(0 .. s.length - 1)`. */
  /** Text of the Basic Multilingual Plane is one code unit per character, the character's own value. */
  lemma {:induction false} Utf16Bmp(s: string)
    requires forall k :: 0 <= k < |s| ==> s[k] as int < 0x1_0000
    ensures |Utf16(s)| == |s|
    ensures forall k :: 0 <= k < |s| ==> Utf16(s)[k] == s[k] as int
  {
    if |s| > 0 {
      var init := s[..|s| - 1];
      Utf16Bmp(init);
      assert forall k :: 0 <= k < |init| ==> init[k] == s[k];
    }
  }

  function Utf16(s: string): (u: seq<int>)
    ensures |s| <= |u| <= 2 * |s|
    ensures forall k :: 0 <= k < |u| ==> 0 <= u[k] < 0x1_0000
  {
    if |s| == 0 then [] else Utf16(s[..|s| - 1]) + CodeUnits(s[|s| - 1])
  }

  // ---------------------------------------------------------------------------
  // 32-bit integers

  /** ECMAScript ToInt32 on an integral number: wrap into [-2^31, 2^31). */
  function ToInt32(x: int): (r: int)
    ensures -0x8000_0000 <= r < 0x8000_0000
    ensures (x - r) % 0x1_0000_0000 == 0
  {
    var m := x % 0x1_0000_0000;
    if m >= 0x8000_0000 then m - 0x1_0000_0000 else m
  }

  // ---------------------------------------------------------------------------
  // includes

  /** `s.includes(t)`: `t` occurs somewhere in `s`. */
  function Includes(s: string, t: string): bool
    decreases |s|
  {
    t <= s || (|s| > 0 && Includes(s[1..], t))
  }

  /** `Includes` means an occurrence at some index. */
  lemma {:induction false} IncludesAt(s: string, t: string, i: nat)
    requires i + |t| <= |s| && s[i..i + |t|] == t
    ensures Includes(s, t)
    decreases i
  {
    if i > 0 {
      assert s[1..][i - 1..i - 1 + |t|] == s[i..i + |t|];
      IncludesAt(s[1..], t, i - 1);
    } else {
      assert t <= s;
    }
  }

  /** `t` occurs in `s` at index `i`. */
  predicate OccursAt(s: string, t: string, i: nat) {
    i + |t| <= |s| && s[i..i + |t|] == t
  }

  /** `s.includes(t)` holds exactly when `t` occurs in `s` at some index. */
  lemma {:induction false} IncludesOccurrence(s: string, t: string)
    ensures Includes(s, t) <==> exists i: nat :: OccursAt(s, t, i)
    decreases |s|
  {
    if Includes(s, t) {
      if t <= s {
        assert OccursAt(s, t, 0);
      } else {
        IncludesOccurrence(s[1..], t);
        var i: nat :| OccursAt(s[1..], t, i);
        var rest := s[1..];
        assert i + 1 + |t| <= |s| && rest[i..i + |t|] == t;
        assert forall j :: 1 <= j < |s| ==> s[j] == rest[j - 1];
        assert OccursAt(s, t, i + 1);
      }
    } else {
      forall i: nat ensures !OccursAt(s, t, i) {
        if i + |t| <= |s| {
          if i == 0 {
            assert s[0..|t|] == s[..|t|];
            assert !(t <= s);
          } else {
            IncludesOccurrence(s[1..], t);
            assert s[1..][i - 1..i - 1 + |t|] == s[i..i + |t|];
            assert !OccursAt(s[1..], t, i - 1);
          }
        }
      }
    }
  }

  /** `t` occurs in any text that has it between two other texts. */
  lemma IncludesMiddle(a: string, t: string, b: string)
    ensures Includes(a + t + b, t)
  {
    assert (a + t + b)[|a|..|a| + |t|] == t;
    IncludesAt(a + t + b, t, |a|);
  }

  /** A non-empty `t` whose first character does not occur in `s` does not occur in `s`. */
  lemma {:induction false} NotIncludes(s: string, t: string)
    requires t != "" && t[0] !in s
    ensures !Includes(s, t)
    decreases |s|
  {
    if |s| > 0 {
      assert s[0] in s;
      assert forall c :: c in s[1..] ==> c in s;
      NotIncludes(s[1..], t);
    }
  }

  /** A `t` at least as long as `s` occurs in `s` only as `s` itself. */
  lemma {:induction false} NotIncludesLonger(s: string, t: string)
    requires |s| <= |t| && s != t
    ensures !Includes(s, t)
    decreases |s|
  {
    if |s| > 0 {
      NotIncludesLonger(s[1..], t);
    }
  }

  // ---------------------------------------------------------------------------
  // the default comparison of Array.prototype.sort

  /** Lexicographic order on code-unit sequences (a prefix comes first). */
  predicate UnitsLe(a: seq<int>, b: seq<int>)
    decreases |a|
  {
    |a| == 0 || (|b| > 0 && (a[0] < b[0] || (a[0] == b[0] && UnitsLe(a[1..], b[1..]))))
  }

  lemma {:induction false} UnitsLeTotal(a: seq<int>, b: seq<int>)
    ensures UnitsLe(a, b) || UnitsLe(b, a)
    decreases |a|
  {
    if |a| > 0 && |b| > 0 && a[0] == b[0] {
      UnitsLeTotal(a[1..], b[1..]);
    }
  }

  /** `a` sorts no later than `b` under the default `sort`: compare UTF-16 code units. */
  predicate CodeUnitLe(a: string, b: string) {
    UnitsLe(Utf16(a), Utf16(b))
  }

  predicate Sorted(xs: seq<string>) {
    forall k :: 0 < k < |xs| ==> CodeUnitLe(xs[k - 1], xs[k])
  }

  function Insert(x: string, xs: seq<string>): (ys: seq<string>)
    requires Sorted(xs)
    ensures Sorted(ys)
    ensures multiset(ys) == multiset(xs) + multiset{x}
    ensures ys[0] == x || (|xs| > 0 && ys[0] == xs[0])
  {
    if |xs| == 0 then [x]
    else if CodeUnitLe(x, xs[0]) then [x] + xs
    else
      UnitsLeTotal(Utf16(x), Utf16(xs[0]));
      assert xs == [xs[0]] + xs[1..];
      [xs[0]] + Insert(x, xs[1..])
  }

  /** `xs.slice().sort()`: the same strings, in code-unit order. */
  function SortStrings(xs: seq<string>): (ys: seq<string>)
    ensures Sorted(ys)
    ensures multiset(ys) == multiset(xs)
  {
    if |xs| == 0 then []
    else
      assert xs == [xs[0]] + xs[1..];
      Insert(xs[0], SortStrings(xs[1..]))
  }
}

=== FILE: json.dfy ===
/** A parsed JSON value, as `res.json()` hands it to the services. */
module Json {

  datatype Json =
    | JNull
    | JBool(b: bool)
    | JNumber(n: int)
    | JString(s: string)
    | JArray(items: seq<Json>)
    | JObject(members: map<string, Json>)
}

=== FILE: notion.dfy ===
/**
 * The typed properties of a Notion page, as both services read them.
 * A property's `type` tag is the constructor; every payload the Notion API
 * may leave out or set to null is an `Option`.
 */
module Notion {
  import opened JsString

  /** One entry of a `files` property: `file.url` (hosted) and `external.url`. */
  datatype FileEntry = FileEntry(hosted: Option<string>, external: Option<string>)

  /**
   * One Notion property value. Title and rich-text hold their runs' `plain_text`
   * (`None` where a run has none); `Unknown` is every type neither service lists
   * (checkbox, people, relation, formula, ...).
   */
  datatype Property =
    | Title(titleRuns: seq<Option<string>>)
    | RichText(textRuns: seq<Option<string>>)
    | Select(selectName: Option<string>)
    | Status(statusName: Option<string>)
    | Url(url: Option<string>)
    | Email(email: Option<string>)
    | Phone(phone: Option<string>)
    | Number(number: Option<int>)
    | Date(start: Option<string>)
    | MultiSelect(names: seq<string>)
    | Files(files: seq<FileEntry>)
    | Unknown(typeName: string)

  /** A page's properties in object enumeration order; `None` is a null value. */
  type Properties = seq<(string, Option<Property>)>

  /** A database row (page): its `id` and its `properties`. */
  datatype Row = Row(id: Option<string>, properties: Properties)

  predicate IsTitle(prop: Option<Property>) {
    prop.Some? && prop.value.Title?
  }

  /** `props[key]`: the value of the property named `key`, `None` when absent or null. */
  function Lookup(props: Properties, key: string): Option<Property> {
    if |props| == 0 then None
    else if props[0].0 == key then props[0].1
    else Lookup(props[1..], key)
  }

  /** `Lookup` finds the first property named `key`, and nothing when no property has that name. */
  lemma {:induction false} LookupFirst(props: Properties, key: string)
    ensures (forall k :: 0 <= k < |props| ==> props[k].0 != key) ==> Lookup(props, key).None?
    ensures forall k :: (0 <= k < |props| && props[k].0 == key && (forall j :: 0 <= j < k ==> props[j].0 != key)
      ==> Lookup(props, key) == props[k].1)
  {
    if |props| > 0 && props[0].0 != key {
      LookupFirst(props[1..], key);
      assert forall k :: 1 <= k < |props| ==> props[k] == props[1..][k - 1];
    }
  }

  /** The names of the properties, in enumeration order: `Object.keys(props)`. */
  function Names(props: Properties): (names: seq<string>)
    ensures |names| == |props|
    ensures forall k :: 0 <= k < |props| ==> names[k] == props[k].0
  {
    seq(|props|, k requires 0 <= k < |props| => props[k].0)
  }

  /** The text of rich-text runs: each run's `plain_text`, missing ones as `""`, concatenated. */
  function PlainText(runs: seq<Option<string>>): string {
    if |runs| == 0 then "" else PlainText(runs[..|runs| - 1]) + Str(runs[|runs| - 1])
  }

  /** The runs give no text exactly when every run's `plain_text` is missing or empty. */
  lemma {:induction false} PlainTextEmpty(runs: seq<Option<string>>)
    ensures PlainText(runs) == "" <==> forall k :: 0 <= k < |runs| ==> Str(runs[k]) == ""
  {
    if |runs| > 0 {
      var init := runs[..|runs| - 1];
      PlainTextEmpty(init);
      assert forall k :: 0 <= k < |init| ==> init[k] == runs[k];
    }
  }

  /** `f?.file?.url || f?.external?.url`, with `undefined` read as `""`. */
  function FileUrl(entry: FileEntry): string {
    Or(Str(entry.hosted), Str(entry.external))
  }

  /** `files.map(FileUrl).filter(Boolean)`: the hosted or external URL of each entry, in order. */
  function FileUrls(files: seq<FileEntry>): (urls: seq<string>)
    ensures |urls| <= |files|
    ensures forall k :: 0 <= k < |urls| ==> urls[k] != ""
  {
    if |files| == 0 then []
    else (if FileUrl(files[0]) != "" then [FileUrl(files[0])] else []) + FileUrls(files[1..])
  }

  /** The URLs of two runs of entries are the URLs of the first run, then those of the second. */
  lemma {:induction false} FileUrlsAppend(a: seq<FileEntry>, b: seq<FileEntry>)
    ensures FileUrls(a + b) == FileUrls(a) + FileUrls(b)
  {
    if |a| > 0 {
      assert (a + b)[1..] == a[1..] + b;
      FileUrlsAppend(a[1..], b);
    } else {
      assert a + b == b;
    }
  }

  /**
   * An entry whose hosted URL is set gives that URL, an entry with only an
   * external URL gives the external one, and an entry with neither gives nothing.
   */
  lemma FileUrlsSingle(entry: FileEntry)
    ensures Str(entry.hosted) != "" ==> FileUrls([entry]) == [entry.hosted.value]
    ensures Str(entry.hosted) == "" && Str(entry.external) != "" ==> FileUrls([entry]) == [entry.external.value]
    ensures Str(entry.hosted) == "" && Str(entry.external) == "" ==> FileUrls([entry]) == []
  {
    assert [entry][1..] == [];
  }
}
